=== FILE: README.md ===
# kube-router pod firewall synchronisation, modelled in Dafny

This project models the per-pod firewall logic of kube-router's network
policy controller (`pkg/controllers/netpol/pod.go`) and proves properties
of it.

On every synchronisation pass the controller:

- collects the pods running on its node;
- gives each pod a firewall chain whose name comes from a digest of the pod's
  namespace, name and the pass's generation tag;
- fills that chain with:
  - a jump to the chain of every network policy that targets the pod, or a
    jump to a default ingress or egress chain when none does;
  - an accept rule for traffic from the local node;
  - an accept rule for established traffic;
  - a log rule and a reject rule for unmarked packets;
  - two mark rules;
- hooks the chain into the global INPUT, FORWARD and OUTPUT chains, matching
  the pod's address;
- returns the set of chains it made active, or the first error, in which
  case no set at all.

Pod events feed the controller. An add always requests a full resync. An
update requests one only when the pod's phase or address changed. A delete
requests one when a pod can be recovered from the payload, either directly or
from a tombstone.

The packet filter is modelled as an in-memory `filter` table, a map from chain
name to a sequence of abstract rules (`Netfilter`). The four executor
primitives the code uses work on that table:

- `Exists`: is the rule in the chain;
- `Insert` at position 1: put the rule at the head of the chain;
- `AppendUnique`: append the rule unless it is already there;
- `NewChain`: create the chain.

Command failures are nondeterministic in reality. Here a host carries a script
of outcomes and a cursor into it. Every command reads the outcome under the
cursor and moves the cursor one place. A cursor past the end of the script
means that every further command succeeds. Exit status 1 (`ConflictStatus`)
is what iptables reports both for "chain already exists" and for "no such
chain". The model produces it from the state of the table too:

- `NewChain` on an existing chain returns it;
- `Insert` or `AppendUnique` on a missing chain returns it.

`Insert` does not check that a jump's target chain exists. The policy chains
and the default ingress and egress chains are not in the table. So a missing
jump target shows up only as a scripted status 1, and the presence lemmas
exclude exactly that with their `ExitOneFree` condition: the script holds no
status 1.

The source tolerates status 1 in three places, and the model tolerates it in
exactly those places:

- on chain creation;
- on policy-jump inserts;
- on default-jump inserts.

Modules, in dependency order:

- `Outcomes`: `Option`, and `Outcome` (success, or failure with an exit
  status), which is used with `:-` to stop at the first error.
- `Netfilter`: the table, the primitives, and `Advances`. `Advances(h, h',
  scope, adds)` says how a run of commands may have changed the table:
  - only chains in `scope` were created or changed;
  - nothing was removed;
  - each rule was added at most once;
  - a rule was added only where it was absent, and only if it is in `adds`.
- `ChainNames`: the pod-chain name. SHA-256, base32 encoding and the cut to
  16 characters are replaced together by an uninterpreted function
  (`Digest`) from the hashed text to a 16-character string.
- `Pods`: the pod records, policy membership and `GetLocalPods`.
- `PodEvents`: the event filter.
- `PodRules`: the rule kinds each step must leave (`IngressEntries`,
  `InboundEntries`, …), and the steps themselves as pure functions from host
  to `Outcome<Host>`.
- `PodRuleLemmas`: per step, which rules it adds, that it is a no-op once its
  rules exist, and that it succeeds without failures. It also holds the
  once-only properties.
- `FirewallSync`: one pod's part of the pass (`SyncPod`), the loop over the
  local pods, and `SyncPodFirewallChains`.
- `SyncLemmas`: the properties of the whole pass.

The iteration order of Go's map of local pods is unspecified. The pass
therefore takes it as a parameter `order`, which must list every key of the
map and nothing else, possibly repeating a key; a repeat only revisits that
pod. Every property is proved for every such order.

The drop rules (log and reject) are appended with `AppendUnique` in the code
(`pod.go:370`, `pod.go:378`). A second run therefore never duplicates them.

`getLocalPods` never returns an error, so the sync's error check on it
(`pod.go:79-82`) is dead. The model has no error path there.

The values of the global chain names and the pod-chain prefix are defined in
another file of the repository, which is not part of this model. The model
uses the values kube-router gives them. The proofs rely on only one fact about
these strings: no global chain name starts with the pod-chain prefix.

## Model

| member | source | states |
|---|---|---|
| Pods.GetLocalPods | pkg/controllers/netpol/pod.go:386-404 | An address is a key of the result iff some cached pod with that address runs on the node (host address equal to the node's) and has a non-empty address. Each entry is keyed by its own address and is built from the last such pod in the list, as successive map assignments leave it. |
| ChainNames.PodFirewallChainName | pkg/controllers/netpol/pod.go:407 | The corrected chain name of the Finding: the prefix `KUBE-POD-FW-` followed by the 16-character digest of the pod's namespace, name and generation with the fields separated. Its length is the prefix length plus 16. The sync does not use it. |
| ChainNames.PodFirewallChainNameAsWritten | pkg/controllers/netpol/pod.go:406-410 | The name as the source computes it, hashing the bare concatenation, starts with the prefix `KUBE-POD-FW-` and is the prefix length plus 16 long. The sync names pod chains with it. |
| ChainNames.AsWrittenNamesCollide | pkg/controllers/netpol/pod.go:407 | For every digest and generation, the pod `x` in namespace `team1` and the pod `1x` in namespace `team` get the same chain name from the source's concatenation. |
| ChainNames.SeparatedInputInjective | pkg/controllers/netpol/pod.go:407 | With separators, equal digest inputs mean equal namespace, pod name and generation, and conversely. |
| PodEvents.RequestsResync | pkg/controllers/netpol/pod.go:15-67 | An add always requests a resync. The update and delete cases are characterised by UpdateResyncIff and DeleteResyncIff. |
| PodEvents.UpdateResyncIff | pkg/controllers/netpol/pod.go:21-28 | An update requests a resync iff the phase or the pod address differs between the old and new pod. |
| PodEvents.MetadataOnlyUpdateIgnored | pkg/controllers/netpol/pod.go:21-28 | An update that changes only the labels requests no resync. |
| PodEvents.AddressAssignmentRequestsResync | pkg/controllers/netpol/pod.go:21-28 | A pod that receives its first address requests a resync. |
| PodEvents.DeletedPod | pkg/controllers/netpol/pod.go:53-63 | A pod is recovered iff the payload is a pod or a tombstone directly wrapping a pod, and the result is that pod. |
| PodEvents.DeleteResyncIff | pkg/controllers/netpol/pod.go:52-67 | A delete requests a resync iff the payload is a pod or a tombstone around a pod. Anything else, a nested tombstone included, is dropped. |
| Netfilter.NewChain | pkg/controllers/netpol/pod.go:86-89 | Chain creation adds an empty chain when it succeeds. On an existing chain it always fails and leaves the table as it was; unless the script fails the command with another status first, the failure is the conflict status. |
| Netfilter.Exists | pkg/controllers/netpol/pod.go:153-156 | When the probe succeeds, it reports whether the rule is in the chain, and it never changes the table. |
| Netfilter.Insert | pkg/controllers/netpol/pod.go:158-163 | A successful insert puts the rule in front of an existing chain's rules. A failed one, including on a missing chain, changes nothing. |
| Netfilter.AppendUnique | pkg/controllers/netpol/pod.go:370-373 | A successful append leaves a chain that already holds the rule unchanged, and otherwise puts the rule last. A failed one changes nothing. |
| PodRules.EnsureAtHead | pkg/controllers/netpol/pod.go:153-164 | After the existence check and head insert, the rule is present when the step succeeds without tolerance. The step is a no-op when the rule exists and nothing fails, and it succeeds on an existing chain when nothing fails. |
| PodRules.EnsureAtHeadAdvances | pkg/controllers/netpol/pod.go:153-164 | The check-then-insert changes only its own chain, and only by adding its rule once where it was absent. |
| PodRules.AppendRule | pkg/controllers/netpol/pod.go:370-373 | After an append the rule is present, and a rule that was absent becomes the chain's last rule. When the rule exists and nothing fails, it is a no-op. |
| PodRules.EnsureAppended | pkg/controllers/netpol/pod.go:209-218 | The existence check followed by a unique append leaves the rule present. It is a no-op when the rule exists and nothing fails. |
| PodRules.AppendToEachAdvances | pkg/controllers/netpol/pod.go:201-219 | The loop over INPUT, FORWARD and OUTPUT changes only those chains and leaves the rule in each of them. |
| PodRules.JumpToPoliciesAdvances | pkg/controllers/netpol/pod.go:247-265 | The policy loop changes only the pod chain and adds only jumps to targeting policies. On an existing pod chain and without a scripted conflict status, it leaves a jump for every targeting policy. |
| PodRules.JumpToPoliciesNoOp | pkg/controllers/netpol/pod.go:247-265 | When every targeting policy's jump exists and nothing fails, the loop changes nothing. |
| PodRules.DefaultJumpUnlessTargeted | pkg/controllers/netpol/pod.go:267-280 | When some policy targets the pod, the default jump step does nothing. Otherwise, on an existing pod chain and without a scripted conflict status, it leaves the default jump present. |
| PodRules.SetupPodIngressRules | pkg/controllers/netpol/pod.go:244-309 | A successful ingress step keeps the set of chains and needs the pod chain to exist. |
| PodRules.SetupPodEgressRules | pkg/controllers/netpol/pod.go:312-364 | A successful egress step keeps the set of chains and needs the pod chain to exist. |
| PodRules.InterceptPodInboundTraffic | pkg/controllers/netpol/pod.go:147-196 | A successful inbound interception keeps the set of chains and needs FORWARD and OUTPUT to exist. |
| PodRules.InterceptPodOutboundTraffic | pkg/controllers/netpol/pod.go:200-241 | A successful outbound interception keeps the set of chains and needs INPUT, FORWARD and OUTPUT to exist. |
| PodRules.DropUnmarkedTrafficRules | pkg/controllers/netpol/pod.go:366-384 | A successful drop step keeps the set of chains and needs the pod chain to exist. |
| PodRuleLemmas.IngressAdvances | pkg/controllers/netpol/pod.go:244-309 | The ingress step changes only the pod chain and adds only its own rules, each at most once. |
| PodRuleLemmas.IngressInstalls | pkg/controllers/netpol/pod.go:244-309 | Without a scripted conflict status, the ingress step leaves all of these present: every targeting policy's jump, the default ingress jump unless targeted, and both accept rules. |
| PodRuleLemmas.IngressNoOp | pkg/controllers/netpol/pod.go:244-309 | Once all ingress rules exist and nothing fails, the ingress step changes nothing. |
| PodRuleLemmas.IngressSucceeds | pkg/controllers/netpol/pod.go:244-309 | Without failures and with the pod chain present, the ingress step succeeds. |
| PodRuleLemmas.EgressAdvances | pkg/controllers/netpol/pod.go:312-364 | The egress step changes only the pod chain and adds only its own rules, each at most once. |
| PodRuleLemmas.EgressInstalls | pkg/controllers/netpol/pod.go:312-364 | Without a scripted conflict status, the egress step leaves all of these present: every targeting policy's jump, the default egress jump unless targeted, and the stateful accept. |
| PodRuleLemmas.EgressNoOp | pkg/controllers/netpol/pod.go:312-364 | Once all egress rules exist and nothing fails, the egress step changes nothing. |
| PodRuleLemmas.EgressSucceeds | pkg/controllers/netpol/pod.go:312-364 | Without failures and with the pod chain present, the egress step succeeds. |
| PodRuleLemmas.InboundAdvances | pkg/controllers/netpol/pod.go:147-196 | Inbound interception changes only FORWARD and OUTPUT, adds only its three jumps, and leaves all three present. |
| PodRuleLemmas.InboundNoOp | pkg/controllers/netpol/pod.go:147-196 | Once the three inbound jumps exist and nothing fails, inbound interception changes nothing. |
| PodRuleLemmas.InboundSucceeds | pkg/controllers/netpol/pod.go:147-196 | Without failures and with the global chains present, inbound interception succeeds. |
| PodRuleLemmas.OutboundAdvances | pkg/controllers/netpol/pod.go:200-241 | Outbound interception changes only the global chains, adds only its four jumps, and leaves all four present. |
| PodRuleLemmas.OutboundNoOp | pkg/controllers/netpol/pod.go:200-241 | Once the four outbound jumps exist and nothing fails, outbound interception changes nothing. |
| PodRuleLemmas.OutboundSucceeds | pkg/controllers/netpol/pod.go:200-241 | Without failures and with the global chains present, outbound interception succeeds. |
| PodRuleLemmas.DropAdvances | pkg/controllers/netpol/pod.go:366-384 | The drop step changes only the pod chain, adds only the log and reject rules, and leaves both present. |
| PodRuleLemmas.DropNoOp | pkg/controllers/netpol/pod.go:366-384 | Once both drop rules exist and nothing fails, the drop step changes nothing. |
| PodRuleLemmas.DropSucceeds | pkg/controllers/netpol/pod.go:366-384 | Without failures and with the pod chain present, the drop step succeeds. |
| PodRuleLemmas.DropTailOrder | pkg/controllers/netpol/pod.go:366-384 | On a chain holding neither drop rule, the drop step makes the log rule and then the reject rule the chain's last two rules, with everything before them unchanged. |
| PodRuleLemmas.AppendsTwoLast | pkg/controllers/netpol/pod.go:370-380 | Two distinct absent rules appended one after the other become the chain's last two rules, in that order. |
| PodRuleLemmas.DefaultIngressNotOtherwiseRequired | pkg/controllers/netpol/pod.go:267-280 | The default ingress jump is among the ingress rules iff no policy targets the pod. The same holds for the default egress jump among the egress rules, which the ingress step never requires. |
| PodRuleLemmas.IngressRulesOnce | pkg/controllers/netpol/pod.go:244-309 | Starting from a chain without duplicates and without a scripted conflict status, after ingress setup: every targeting policy's jump appears exactly once; so do both accept rules; no rule is duplicated; and an absent default ingress jump is present iff no policy targets the pod. |
| PodRuleLemmas.EgressAddsNoSecondCopy | pkg/controllers/netpol/pod.go:312-364 | Ingress then egress on one chain leaves each targeting policy's jump and the stateful accept exactly once, with no rule duplicated. Each absent default jump is present afterwards iff no policy targets the pod. |
| PodRuleLemmas.InboundInterception | pkg/controllers/netpol/pod.go:147-196 | After inbound interception, each of the three jumps appears exactly once where at most one copy was before. No chain other than FORWARD and OUTPUT changes, and every changed count is a first copy of one of the three jumps. |
| PodRuleLemmas.OutboundInterception | pkg/controllers/netpol/pod.go:200-241 | After outbound interception, each of the four jumps appears exactly once where at most one copy was before. No chain outside INPUT, FORWARD and OUTPUT changes, and every changed count is a first copy of one of the four jumps. |
| FirewallSync.PodChain | pkg/controllers/netpol/pod.go:85 | A pod's chain name, computed as the source computes it, has the pod-chain prefix and width, and is never one of the global chains. |
| FirewallSync.CreatePodChain | pkg/controllers/netpol/pod.go:86-89 | Chain creation adds at most the pod chain, which is empty when it is new. A conflict status is not an error, so any failure carries another status. When nothing fails, it is a no-op on an existing chain, and it always succeeds. |
| FirewallSync.CreatePodChainAdvances | pkg/controllers/netpol/pod.go:86-89 | Chain creation adds no rule and changes no existing chain. |
| FirewallSync.AppendMarkRules | pkg/controllers/netpol/pod.go:122-139 | The two mark appends keep the set of chains and need the pod chain to exist. |
| FirewallSync.SyncPod | pkg/controllers/netpol/pod.go:84-139 | After one pod's part of the pass succeeds, the pod's chain exists. |
| FirewallSync.SyncPods | pkg/controllers/netpol/pod.go:83-142 | On success, the active set is exactly the chains of the pods visited. |
| FirewallSync.SyncPodFirewallChains | pkg/controllers/netpol/pod.go:70-143 | On success, the active set is exactly the set of chain names of the local pods. A failure carries no set. Two colliding pods (see Findings) contribute one name, as in the source. |
| SyncLemmas.MarksAdvances | pkg/controllers/netpol/pod.go:122-139 | The mark appends change only the pod chain, add only the two mark rules, and leave both present. |
| SyncLemmas.MarksNoOp | pkg/controllers/netpol/pod.go:122-139 | Once both mark rules exist and nothing fails, the mark appends change nothing. |
| SyncLemmas.MarksLast | pkg/controllers/netpol/pod.go:122-139 | On a chain holding neither mark rule, the mark reset and then the mark accept become its last two rules. |
| SyncLemmas.SyncPodSteps | pkg/controllers/netpol/pod.go:84-139 | A successful pod passes through the seven steps in the source's order, each succeeding. |
| SyncLemmas.SyncPodAdvances | pkg/controllers/netpol/pod.go:84-139 | One pod's part of the pass changes only the pod's chain and the global chains, and adds only that pod's rules, each at most once. |
| SyncLemmas.SyncPodInstalls | pkg/controllers/netpol/pod.go:84-139 | Without a scripted conflict status, a successful pod's chain exists and holds every one of its rules, and the global chains hold its jumps. |
| SyncLemmas.SyncPodNoOp | pkg/controllers/netpol/pod.go:84-139 | Once the pod's chain and all its rules exist and nothing fails, its part of the pass succeeds and leaves the host exactly as it was. |
| SyncLemmas.SyncPodSucceeds | pkg/controllers/netpol/pod.go:84-139 | Without failures and with the global chains present, one pod's part of the pass succeeds. |
| SyncLemmas.FreshChainBody | pkg/controllers/netpol/pod.go:92-113 | A pod chain that started empty and was since changed only by adding ingress, egress and interception rules holds only policy-related rules, none twice. |
| SyncLemmas.TailRulesNotPolicyRules | pkg/controllers/netpol/pod.go:117-139 | The log, reject and two mark rules are none of the rules the policy steps require. |
| SyncLemmas.SyncPodTailOrder | pkg/controllers/netpol/pod.go:84-139 | For a pod whose chain did not exist before, the chain afterwards ends with exactly four rules in this order: log-unmarked, reject-unmarked, mark reset (`0/0x10000`), mark accept (`0x20000/0x20000`). Everything before them is a policy-related rule. |
| SyncLemmas.SyncPodsAdvances | pkg/controllers/netpol/pod.go:83-142 | The loop changes only the global chains and the chains it reports active, and adds only the visited pods' rules, each at most once. |
| SyncLemmas.SyncPodsInstalls | pkg/controllers/netpol/pod.go:83-142 | Without a scripted conflict status, after a successful loop every visited pod has its chain and all its rules. |
| SyncLemmas.SyncPodsNoOp | pkg/controllers/netpol/pod.go:83-142 | When every visited pod's rules exist and nothing fails, the loop succeeds and changes nothing. |
| SyncLemmas.SyncPodsSucceed | pkg/controllers/netpol/pod.go:83-142 | Without failures and with the global chains present, the loop succeeds. |
| SyncLemmas.SyncFrame | pkg/controllers/netpol/pod.go:70-143 | A successful pass: creates no chain outside the global and active ones; changes no chain outside them; removes no rule; and adds each rule at most once, only where it was absent. |
| SyncLemmas.SyncComplete | pkg/controllers/netpol/pod.go:70-143 | Without a scripted conflict status, after a successful pass every local pod's chain exists and holds all its rules. |
| SyncLemmas.SyncIdempotent | pkg/controllers/netpol/pod.go:70-143 | After a successful first pass with no scripted conflict status, a second pass over the same pods, in any order and without failures, succeeds with the same active set and leaves the table exactly as the first pass left it. |
| SyncLemmas.SyncSucceedsWithoutFaults | pkg/controllers/netpol/pod.go:70-143 | Without failures and with the global chains present, the pass succeeds. |
| SyncLemmas.SyncAbortsOnFault | pkg/controllers/netpol/pod.go:84-89 | With a local pod to sync, a first command failing with any status other than the conflict status ends the pass with that status and no active set. |

## Left out

- The go-iptables executor: `iptables.New`, and the real commands behind `Exists`, `Insert`, `AppendUnique` and `NewChain`. They are foreign OS calls. `Netfilter` gives them abstract semantics, and the semantics of `AppendUnique` are inferred from its name.
- `glog.Fatalf` when the executor cannot be created (`pod.go:75-77`): it ends the process. The model starts with an executor.
- All logging.
- The error text built with `fmt.Errorf`: a failure carries only the exit status of the failing command.
- The informer: the pod lister becomes the input sequence `pods`, and `RequestFullSync` becomes the boolean `RequestsResync`.
- `OnPodAdd` and `OnPodUpdate`: each only requests a resync. This is modelled as `true` for an add event.
- The unchecked type assertions at `pod.go:22-23`, `:37` and `:389` panic on an object that is not a pod. Those at `pod.go:87`, `:261`, `:276`, `:329` and `:344` panic on an executor error that is not an `*iptables.Error`. The model takes typed pods and gives every command failure an exit status, so where the source would crash, the model's pass returns a `Failure`.
- SHA-256 and base32: they become the `Digest` parameter. Nothing about their collision-freedom is claimed.
- `networkPolicyChainName`: it is defined outside `pod.go`, so the model takes it as an uninterpreted parameter of the pass.
- Pod labels: they are copied into the local-pod records but never read by this code.
- Packet evaluation: what the chains do to traffic is not modelled. Rules are abstract values keyed by kind, pod and target chain, and comment strings are not modelled.
- The relative order of head-inserted rules: the properties speak of presence and multiplicity. Order is proved only for the appended tail of a fresh chain.
- Concurrency with other controllers and the garbage collection of old generations' chains: both happen outside this code.
- PodRuleLemmas.IngressInstalls: presence is proved only when the fault script holds no conflict status. The source tolerates that status on policy and default jump inserts, so a jump can be silently missing while the pass succeeds.
- PodRuleLemmas.EgressInstalls: same condition as IngressInstalls, for the same reason.
- PodRules.JumpToPoliciesAdvances: presence needs the same condition as IngressInstalls, for the same reason.
- PodRules.DefaultJumpUnlessTargeted: presence needs the same condition as IngressInstalls, for the same reason.
- SyncLemmas.SyncPodInstalls: same condition as IngressInstalls, for the same reason.
- SyncLemmas.SyncPodsInstalls: same condition as IngressInstalls, for the same reason.
- SyncLemmas.SyncComplete: same condition as IngressInstalls, for the same reason.
- PodRuleLemmas.IngressRulesOnce: also assumes the chain starts without duplicate rules. The source checks only for existence, so a duplicate that was already there is kept.
- PodRuleLemmas.EgressAddsNoSecondCopy: same conditions as IngressRulesOnce, for the same reasons.
- PodRuleLemmas.InboundInterception: exactly-once holds only where at most one copy existed before, because a pre-existing duplicate is kept.
- PodRuleLemmas.OutboundInterception: same limitation as InboundInterception, for the same reason.
- SyncLemmas.SyncIdempotent: the first pass must meet the same condition as IngressInstalls, because a tolerated conflict can leave a jump missing, which the second pass would then add. The second pass is taken without failures.
- SyncLemmas.SyncPodTailOrder: tail order is proved for a chain created by this pass. On a chain that already existed, a second run leaves the tail where it was.
- The table a failed pass leaves behind: the source does not roll back the chains and rules it already wrote (`pod.go:84-139`), but a failed pass in the model returns only the exit status, so nothing is stated about that partial table.
- SyncLemmas.SyncAbortsOnFault: covers only a failure of the very first command. Failures at later steps propagate through the same `:-` chain and are not separately stated.

## Findings

| source | as written | input that shows it | evidently intended | confidence | as-written member | corrected member |
|---|---|---|---|---|---|---|
| pkg/controllers/netpol/pod.go:407 | The digest input is `namespace + podName + version`, with no separator between the fields. | Pod `x` in namespace `team1` and pod `1x` in namespace `team`, in the same generation, give the same digest input and so the same chain name, whatever the hash. | Distinct pods of one generation hash distinct inputs. Separating the fields with a character that Kubernetes names cannot contain (`/`) gives that. | not executed | ChainNames.AsWrittenNamesCollide | ChainNames.SeparatedInputInjective |

The pass itself keeps the name as written (`FirewallSync.PodChain` calls
`PodFirewallChainNameAsWritten`). So two such pods share one chain in the
model's pass, as they do in the source. The corrected name is defined and
proved injective on its input, but the sync does not use it.

=== FILE: chain_names.dfy ===
/**
  Per-pod firewall chain names: a role prefix followed by the first 16
  characters of an encoded digest of the pod's identity and the sync
  generation. The digest (SHA-256, then standard base32, cut to its first 16
  characters) is not modelled: it is an arbitrary function into 16-character
  strings; base32 of 32 bytes always has more than 16 characters to cut.
  Nothing here assumes the digest is collision-free.
 */
module ChainNames {

  const PodChainPrefix: string := "KUBE-POD-FW-"

  /** Number of digest characters kept in a chain name. */
  const DigestChars: nat := 16

  /** The characters of an encoded digest that a chain name keeps. */
  type DigestText = s: string | |s| == DigestChars witness "AAAAAAAAAAAAAAAA"

  /** The encoded digest, cut to the kept characters; uninterpreted. */
  type Digest = string -> DigestText

  /** Separator placed between the hashed fields; Kubernetes namespaces and
      pod names never contain it. */
  const Separator: char := '/'

  /** The digest input as the source forms it: the bare concatenation. */
  function ConcatenatedInput(namespace: string, podName: string, version: string): string {
    namespace + podName + version
  }

  /** The digest input with the fields separated, so that it determines them. */
  function SeparatedInput(namespace: string, podName: string, version: string): string {
    namespace + [Separator] + podName + [Separator] + version
  }

  /** Chain name as written in the source, hashing the bare concatenation;
      the sync names pod chains with it. */
  function PodFirewallChainNameAsWritten(digest: Digest, namespace: string, podName: string, version: string): (name: string)
    ensures |name| == |PodChainPrefix| + DigestChars
    ensures name[..|PodChainPrefix|] == PodChainPrefix
  {
    PodChainPrefix + digest(ConcatenatedInput(namespace, podName, version))
  }

  /** The corrected chain name: the same prefix and width, hashing the
      separated input, so that distinct pods never share a digest input. */
  function PodFirewallChainName(digest: Digest, namespace: string, podName: string, version: string): (name: string)
    ensures |name| == |PodChainPrefix| + DigestChars
    ensures name[..|PodChainPrefix|] == PodChainPrefix
    ensures name[|PodChainPrefix|..] == digest(SeparatedInput(namespace, podName, version))
  {
    PodChainPrefix + digest(SeparatedInput(namespace, podName, version))
  }

  /** Two different pods of one generation get the same chain name from the
      source's concatenation, whatever the digest: the pod "x" in namespace
      "team1" and the pod "1x" in namespace "team". */
  lemma AsWrittenNamesCollide(digest: Digest, version: string)
    ensures ("team1", "x") != ("team", "1x")
    ensures PodFirewallChainNameAsWritten(digest, "team1", "x", version)
         == PodFirewallChainNameAsWritten(digest, "team", "1x", version)
  {
    assert "team1" + "x" == "team" + "1x";
  }

  /** The separator after `a` cannot come before the one after `x`. */
  lemma SeparatorNotEarlier(a: string, b: string, x: string, y: string)
    requires Separator !in x
    requires a + [Separator] + b == x + [Separator] + y
    ensures |x| <= |a|
  {
    if |a| < |x| {
      SeparatorAbsentAt(x, |a|);
      SeparatorAfter(a, b);
      assert false;
    }
  }

  lemma SeparatorAbsentAt(x: string, i: nat)
    requires Separator !in x && i < |x|
    ensures x[i] != Separator
  {
  }

  lemma SeparatorAfter(a: string, b: string)
    ensures (a + [Separator] + b)[|a|] == Separator
  {
  }

  /** Splitting at the first separator recovers both halves when the first
      half has none. */
  lemma SplitAtSeparator(a: string, b: string, x: string, y: string)
    requires Separator !in a && Separator !in x
    requires a + [Separator] + b == x + [Separator] + y
    ensures a == x && b == y
  {
    var s := a + [Separator] + b;
    SeparatorNotEarlier(a, b, x, y);
    SeparatorNotEarlier(x, y, a, b);
    assert a == s[..|a|] && x == s[..|x|];
    assert b == s[|a| + 1..] && y == s[|x| + 1..];
  }

  /** With separators, the digest input determines namespace, pod name and
      generation: distinct pods never share a digest input. */
  lemma {:induction false} SeparatedInputInjective(ns1: string, pod1: string, v1: string, ns2: string, pod2: string, v2: string)
    requires Separator !in ns1 && Separator !in pod1
    requires Separator !in ns2 && Separator !in pod2
    ensures SeparatedInput(ns1, pod1, v1) == SeparatedInput(ns2, pod2, v2)
        <==> (ns1, pod1, v1) == (ns2, pod2, v2)
  {
    if SeparatedInput(ns1, pod1, v1) == SeparatedInput(ns2, pod2, v2) {
      assert SeparatedInput(ns1, pod1, v1) == ns1 + [Separator] + (pod1 + [Separator] + v1);
      assert SeparatedInput(ns2, pod2, v2) == ns2 + [Separator] + (pod2 + [Separator] + v2);
      SplitAtSeparator(ns1, pod1 + [Separator] + v1, ns2, pod2 + [Separator] + v2);
      SplitAtSeparator(pod1, v1, pod2, v2);
    }
  }
}

=== FILE: netfilter.dfy ===
/**
  An abstract, in-memory packet filter: the `filter` table as a map from chain
  name to an ordered sequence of abstract rules, the four executor primitives
  the pod firewall code uses (Exists, Insert at position 1, AppendUnique,
  NewChain), and a small algebra (`Advances`) for saying how a sequence of
  primitive calls may have changed the table.

  Command failures are nondeterministic in the real executor. Here a host
  carries a script of outcomes and a cursor into it: every primitive consumes
  the outcome under the cursor, and once the script is exhausted every further
  command succeeds.
 */
module Netfilter {

  type Chain = string

  /** Global chains the controller maintains outside the pod chains. */
  const InputChain: Chain := "KUBE-ROUTER-INPUT"
  const ForwardChain: Chain := "KUBE-ROUTER-FORWARD"
  const OutputChain: Chain := "KUBE-ROUTER-OUTPUT"
  const GlobalChains: set<Chain> := {InputChain, ForwardChain, OutputChain}

  /** Mark bit a policy chain sets when one of its rules permits a packet. */
  const ProvisionalPassMark: int := 0x10000
  /** Mark bit the pod chain sets once a packet survived the drop tail. */
  const FinalPassMark: int := 0x20000

  /** Exit status iptables reports both for "chain already exists" and for
      "no chain/target/match by that name"; the source tolerates it in places. */
  const ConflictStatus: int := 1

  /** One installed rule, identified by the arguments that make it distinct.
      The comment strings of the source are functions of these fields. */
  datatype Rule =
      /** `-m comment "run through nw policy <name>" -j <policyChain>` */
    | PolicyJump(policyName: string, policyChain: Chain)
      /** `-d <ip> -j` the default ingress policy chain */
    | DefaultIngressJump(podIP: string)
      /** `-s <ip> -j` the default egress policy chain */
    | DefaultEgressJump(podIP: string)
      /** `-m addrtype --src-type LOCAL -d <ip> -j ACCEPT` */
    | LocalSourceAccept(podIP: string)
      /** `-m conntrack --ctstate RELATED,ESTABLISHED -j ACCEPT` */
    | StatefulAccept
      /** `[-m physdev --physdev-is-bridged] -d <ip> -j <podChain>` */
    | DestinationJump(podName: string, podNamespace: string, podIP: string, podChain: Chain, bridged: bool)
      /** `[-m physdev --physdev-is-bridged] -s <ip> -j <podChain>` */
    | SourceJump(podName: string, podNamespace: string, podIP: string, podChain: Chain, bridged: bool)
      /** `-m mark ! --mark 0x10000/0x10000 -j NFLOG --nflog-group 100`, limited to 10/minute, burst 10 */
    | LogUnmarked(podName: string, podNamespace: string)
      /** `-m mark ! --mark 0x10000/0x10000 -j REJECT` */
    | RejectUnmarked(podName: string, podNamespace: string)
      /** `-j MARK --set-mark <value>/<mask>` */
    | SetMark(value: int, mask: int)

  /** Clears the provisional-pass bit. */
  const ResetMark: Rule := SetMark(0, ProvisionalPassMark)
  /** Sets the final-pass bit. */
  const AcceptMark: Rule := SetMark(FinalPassMark, FinalPassMark)

  type Table = map<Chain, seq<Rule>>

  /** A rule in a chain. */
  type Entry = (Chain, Rule)

  /** Outcome of one executor command. */
  datatype Status = Done | Failed(exitStatus: int)

  /** The packet filter, the scripted command outcomes, and how many of them
      earlier commands consumed. */
  datatype Host = Host(table: Table, faults: seq<Status>, used: nat)

  /** Rules of chain `c`; a missing chain reads as empty. */
  function Rules(t: Table, c: Chain): seq<Rule> {
    if c in t then t[c] else []
  }

  /** How many times rule `r` occurs in chain `c`. */
  function Count(t: Table, c: Chain, r: Rule): nat {
    multiset(Rules(t, c))[r]
  }

  predicate Has(t: Table, c: Chain, r: Rule) {
    Count(t, c, r) > 0
  }

  /** Every entry of `es` is present. */
  ghost predicate Installed(t: Table, es: set<Entry>) {
    forall e | e in es :: Has(t, e.0, e.1)
  }

  /** No rule occurs twice in chain `c`. */
  ghost predicate NoDuplicates(t: Table, c: Chain) {
    forall r :: Count(t, c, r) <= 1
  }

  /** The script never yields the tolerated exit status, so a tolerated
      failure can only come from the state of the table itself. */
  predicate ExitOneFree(h: Host) {
    Failed(ConflictStatus) !in h.faults
  }

  /** The outcome the next command will have. */
  function NextStatus(h: Host): Status {
    if h.used < |h.faults| then h.faults[h.used] else Done
  }

  /** The host after one command consumed its scripted outcome. */
  function Consume(h: Host): (h': Host)
    ensures h'.table == h.table && Later(h, h')
    ensures h.used < |h.faults| ==> h'.used == h.used + 1
    ensures h.used >= |h.faults| ==> h' == h
  {
    if h.used < |h.faults| then h.(used := h.used + 1) else h
  }

  datatype Reply = Reply(status: Status, host: Host)
  datatype Probe = Probe(status: Status, found: bool, host: Host)

  /** `iptables -N`: creates an empty chain; on an existing chain the command
      fails with the conflict status. */
  function NewChain(h: Host, c: Chain): (r: Reply)
    ensures r.host.faults == h.faults && r.host.used == Consume(h).used
    ensures r.status.Done? ==> c !in h.table && r.host.table == h.table[c := []]
    ensures r.status.Failed? ==> r.host.table == h.table
    ensures c in h.table ==> r.status.Failed?
    ensures c in h.table && NextStatus(h) == Done ==> r.status == Failed(ConflictStatus)
  {
    var s := NextStatus(h);
    if s.Failed? then Reply(s, Consume(h))
    else if c in h.table then Reply(Failed(ConflictStatus), Consume(h))
    else Reply(Done, Consume(h).(table := h.table[c := []]))
  }

  /** `iptables -C`: whether the rule is in the chain (false for a missing chain). */
  function Exists(h: Host, c: Chain, r: Rule): (p: Probe)
    ensures p.host == Consume(h)
    ensures p.status.Done? ==> (p.found <==> Has(h.table, c, r))
  {
    var s := NextStatus(h);
    if s.Failed? then Probe(s, false, Consume(h))
    else Probe(Done, Has(h.table, c, r), Consume(h))
  }

  /** `iptables -I c 1`: puts the rule at the head of an existing chain. */
  function Insert(h: Host, c: Chain, r: Rule): (rep: Reply)
    ensures rep.host.faults == h.faults && rep.host.used == Consume(h).used
    ensures rep.status.Done? ==> c in h.table && rep.host.table == h.table[c := [r] + h.table[c]]
    ensures rep.status.Failed? ==> rep.host.table == h.table
    ensures c !in h.table ==> rep.status.Failed?
  {
    var s := NextStatus(h);
    if s.Failed? then Reply(s, Consume(h))
    else if c !in h.table then Reply(Failed(ConflictStatus), Consume(h))
    else Reply(Done, Consume(h).(table := h.table[c := [r] + h.table[c]]))
  }

  /** Appends the rule at the tail of an existing chain unless it is already there. */
  function AppendUnique(h: Host, c: Chain, r: Rule): (rep: Reply)
    ensures rep.host.faults == h.faults && rep.host.used == Consume(h).used
    ensures rep.status.Done? ==> c in h.table
    ensures rep.status.Done? && Has(h.table, c, r) ==> rep.host.table == h.table
    ensures rep.status.Done? && !Has(h.table, c, r) ==> rep.host.table == h.table[c := h.table[c] + [r]]
    ensures rep.status.Failed? ==> rep.host.table == h.table
  {
    var s := NextStatus(h);
    if s.Failed? then Reply(s, Consume(h))
    else if c !in h.table then Reply(Failed(ConflictStatus), Consume(h))
    else if Has(h.table, c, r) then Reply(Done, Consume(h))
    else Reply(Done, Consume(h).(table := h.table[c := h.table[c] + [r]]))
  }

  /** `h'` comes after `h`: the same script, with the cursor no further back. */
  predicate Later(h: Host, h': Host) {
    h'.faults == h.faults && h.used <= h'.used
  }

  /**
    `h'` is reachable from `h` by commands that consumed part of the fault
    script, created or changed only chains in `scope`, and added each rule at
    most once, only where it was absent and only when the entry is in `adds`.
    Nothing is ever removed.
   */
  ghost predicate Advances(h: Host, h': Host, scope: set<Chain>, adds: set<Entry>) {
    && Later(h, h')
    && h.table.Keys <= h'.table.Keys <= h.table.Keys + scope
    && KeepsOutside(h.table, h'.table, scope)
    && AddsOnly(h.table, h'.table, adds)
  }

  /** Every chain of `t` outside `scope` is the same in `t'`. */
  ghost predicate KeepsOutside(t: Table, t': Table, scope: set<Chain>) {
    forall c | c in t && c !in scope :: c in t' && t'[c] == t[c]
  }

  /** Every rule count of `t'` equals that of `t`, or is a single new copy of
      an entry of `adds` that `t` lacked. */
  ghost predicate AddsOnly(t: Table, t': Table, adds: set<Entry>) {
    forall c, r ::
      || Count(t', c, r) == Count(t, c, r)
      || (Count(t, c, r) == 0 && Count(t', c, r) == 1 && (c, r) in adds)
  }

  lemma AdvancesRefl(h: Host, scope: set<Chain>, adds: set<Entry>)
    ensures Advances(h, h, scope, adds)
  {
  }

  lemma AdvancesTrans(h1: Host, h2: Host, h3: Host, scope: set<Chain>, adds: set<Entry>)
    requires Advances(h1, h2, scope, adds) && Advances(h2, h3, scope, adds)
    ensures Advances(h1, h3, scope, adds)
  {
  }

  lemma AdvancesWiden(h: Host, h': Host, scope: set<Chain>, adds: set<Entry>, scope': set<Chain>, adds': set<Entry>)
    requires Advances(h, h', scope, adds)
    requires scope <= scope' && adds <= adds'
    ensures Advances(h, h', scope', adds')
  {
  }

  /** Rules present stay present. */
  lemma AdvancesKeeps(h: Host, h': Host, scope: set<Chain>, adds: set<Entry>, es: set<Entry>)
    requires Advances(h, h', scope, adds)
    requires Installed(h.table, es)
    ensures Installed(h'.table, es)
  {
    forall e | e in es
      ensures Has(h'.table, e.0, e.1)
    {
      assert Has(h.table, e.0, e.1);
    }
  }

  /** What `Advances` says about a step as seen from outside: chains appear
      only in `scope`, chains outside it are unchanged, no rule is removed,
      and every changed count is a first copy. */
  lemma AdvancesFrame(h: Host, h': Host, scope: set<Chain>, adds: set<Entry>)
    requires Advances(h, h', scope, adds)
    ensures h.table.Keys <= h'.table.Keys <= h.table.Keys + scope
    ensures forall c | c in h.table && c !in scope :: c in h'.table && h'.table[c] == h.table[c]
    ensures forall c, r :: Count(h'.table, c, r) >= Count(h.table, c, r)
    ensures forall c, r | Count(h'.table, c, r) != Count(h.table, c, r) :: Count(h.table, c, r) == 0 && Count(h'.table, c, r) == 1
  {
  }

  /** What `Advances` means for a step that also installs all of `adds`:
      each of them ends up exactly once where at most one copy was before,
      chains outside `scope` are unchanged, and every changed count is a
      first copy of one of `adds`. */
  lemma AdvancesMeaning(h: Host, h': Host, scope: set<Chain>, adds: set<Entry>)
    requires Advances(h, h', scope, adds) && Installed(h'.table, adds)
    ensures forall e | e in adds && Count(h.table, e.0, e.1) <= 1 :: Count(h'.table, e.0, e.1) == 1
    ensures forall c | c in h.table && c !in scope :: c in h'.table && h'.table[c] == h.table[c]
    ensures forall c, r | Count(h'.table, c, r) != Count(h.table, c, r) :: Count(h.table, c, r) == 0 && (c, r) in adds
  {
  }

  /** A rule absent at the start and present at the end was one of `adds`. */
  lemma AdvancesOnlyAdds(h: Host, h': Host, scope: set<Chain>, adds: set<Entry>, c: Chain, r: Rule)
    requires Advances(h, h', scope, adds)
    requires Count(h.table, c, r) == 0 && Has(h'.table, c, r)
    ensures (c, r) in adds
  {
  }

  lemma AdvancesNoDuplicates(h: Host, h': Host, scope: set<Chain>, adds: set<Entry>, c: Chain)
    requires Advances(h, h', scope, adds)
    requires NoDuplicates(h.table, c)
    ensures NoDuplicates(h'.table, c)
  {
    forall r
      ensures Count(h'.table, c, r) <= 1
    {
      assert Count(h.table, c, r) <= 1;
    }
  }

  /** A command that failed or found nothing to do changes no chain. */
  lemma UnchangedAdvances(h: Host, h': Host, scope: set<Chain>, adds: set<Entry>)
    requires h'.table == h.table && Later(h, h')
    ensures Advances(h, h', scope, adds)
  {
  }

  /** Inserting an absent rule at the head adds exactly that rule once. */
  lemma InsertAdvances(h: Host, c: Chain, r: Rule)
    requires !Has(h.table, c, r)
    ensures Advances(h, Insert(h, c, r).host, {c}, {(c, r)})
  {
    var h' := Insert(h, c, r).host;
    if c in h.table && h'.table != h.table {
      forall c', r' ensures Count(h'.table, c', r') == Count(h.table, c', r') + (if (c', r') == (c, r) then 1 else 0) {
        if c' == c {
          assert Rules(h'.table, c') == [r] + Rules(h.table, c');
          assert multiset(Rules(h'.table, c')) == multiset([r]) + multiset(Rules(h.table, c'));
        }
      }
    }
  }

  /** AppendUnique adds the rule once when absent and nothing otherwise. */
  lemma AppendUniqueAdvances(h: Host, c: Chain, r: Rule)
    ensures Advances(h, AppendUnique(h, c, r).host, {c}, {(c, r)})
  {
    var h' := AppendUnique(h, c, r).host;
    if h'.table != h.table {
      assert c in h.table && !Has(h.table, c, r);
      forall c', r' ensures Count(h'.table, c', r') == Count(h.table, c', r') + (if (c', r') == (c, r) then 1 else 0) {
        if c' == c {
          assert Rules(h'.table, c') == Rules(h.table, c') + [r];
          assert multiset(Rules(h'.table, c')) == multiset(Rules(h.table, c')) + multiset([r]);
        }
      }
    }
  }

  /** NewChain creates at most chain `c`, empty. */
  lemma NewChainAdvances(h: Host, c: Chain)
    ensures Advances(h, NewChain(h, c).host, {c}, {})
  {
    var h' := NewChain(h, c).host;
    if h'.table != h.table {
      forall c', r' ensures Count(h'.table, c', r') == Count(h.table, c', r') {
        if c' == c {
          assert Rules(h.table, c') == [] && Rules(h'.table, c') == [];
        }
      }
    }
  }
}

=== FILE: outcomes.dfy ===
/** Result types shared by the firewall model. */
module Outcomes {

  /** A value that may be missing. */
  datatype Option<+T> = None | Some(value: T)

  /** What a controller step returns: a value, or the exit status of the
      packet-filter command that failed. The source wraps that status in an
      error message; only the status is kept here. Usable with `:-`. */
  datatype Outcome<+T> = Success(value: T) | Failure(exitStatus: int) {

    predicate IsFailure() {
      Failure?
    }

    function PropagateFailure<U>(): Outcome<U>
      requires Failure?
    {
      Failure(exitStatus)
    }

    function Extract(): T
      requires Success?
    {
      value
    }
  }
}

=== FILE: pod_events.dfy ===
/**
  The event bridge: pod add, update and delete notifications reduce to one
  effect, a request for a full resynchronisation, represented here by the
  boolean each handler returns.
 */
module PodEvents {
  import opened Outcomes
  import opened Pods

  /** The untyped payload of a delete notification: a pod, the informer's
      tombstone wrapping the last known state of an object, or anything else. */
  datatype Payload = PodPayload(pod: Pod) | Tombstone(obj: Payload) | OtherPayload

  datatype PodEvent =
    | Added(pod: Pod)
    | Updated(before: Pod, after: Pod)
    | Deleted(payload: Payload)

  /** Only a phase change or an address change matters to network policies. */
  predicate UpdateMatters(before: Pod, after: Pod) {
    after.phase != before.phase || after.podIP != before.podIP
  }

  /** The pod a delete payload carries: the pod itself, or the pod wrapped by
      a tombstone one level deep. */
  function DeletedPod(payload: Payload): (pod: Option<Pod>)
    ensures pod.Some? <==> payload.PodPayload? || (payload.Tombstone? && payload.obj.PodPayload?)
    ensures pod.Some? ==> payload == PodPayload(pod.value) || payload == Tombstone(PodPayload(pod.value))
  {
    match payload
    case PodPayload(p) => Some(p)
    case Tombstone(PodPayload(p)) => Some(p)
    case _ => None
  }

  /** Whether the handler requests a full resync for the event. */
  function RequestsResync(e: PodEvent): (r: bool)
    ensures e.Added? ==> r
  {
    match e
    case Added(_) => true
    case Updated(before, after) => UpdateMatters(before, after)
    case Deleted(payload) => DeletedPod(payload).Some?
  }

  /** An update requests a resync iff the phase or the address differs. */
  lemma UpdateResyncIff(before: Pod, after: Pod)
    ensures RequestsResync(Updated(before, after)) <==> (before.phase != after.phase || before.podIP != after.podIP)
  {
  }

  /** A change of labels alone leaves the update filtered out. */
  lemma MetadataOnlyUpdateIgnored(before: Pod, labels: map<string, string>)
    ensures !RequestsResync(Updated(before, before.(labels := labels)))
  {
  }

  /** A pod receiving its first address requests a resync. */
  lemma AddressAssignmentRequestsResync(before: Pod, ip: string)
    requires before.podIP == "" && ip != ""
    ensures RequestsResync(Updated(before, before.(podIP := ip)))
  {
  }

  /** A delete requests a resync iff a pod can be recovered from the payload;
      a payload that is neither a pod nor a tombstone around a pod (a nested
      tombstone included) is dropped. */
  lemma DeleteResyncIff(payload: Payload)
    ensures RequestsResync(Deleted(payload))
        <==> (exists p :: payload == PodPayload(p) || payload == Tombstone(PodPayload(p)))
  {
    if payload.PodPayload? {
      assert payload == PodPayload(payload.pod);
    } else if payload.Tombstone? && payload.obj.PodPayload? {
      assert payload == Tombstone(PodPayload(payload.obj.pod));
    }
  }
}

=== FILE: pod_rule_lemmas.dfy ===
/**
  What each per-pod step does to the packet filter: which chains it may
  change, which rules it may add (each at most once, only where absent),
  which rules it guarantees, that it is a no-op once its rules exist, and
  that without command failures it succeeds.
 */
module PodRuleLemmas {
  import opened Outcomes
  import opened Netfilter
  import opened Pods
  import opened PodRules

  // ----- ingress -----

  lemma IngressAdvances(h: Host, ctx: Context, pod: PodInfo, chain: Chain)
    requires SetupPodIngressRules(h, ctx, pod, chain).Success?
    ensures Advances(h, SetupPodIngressRules(h, ctx, pod, chain).value, {chain}, IngressEntries(ctx, pod, chain))
  {
    var S := {chain};
    var J := PolicyJumpEntries(ctx, pod, chain, ctx.policies);
    var D := DefaultEntries(ctx, pod, chain, DefaultIngressJump(pod.ip));
    var L := {(chain, LocalSourceAccept(pod.ip))};
    var T := {(chain, StatefulAccept)};
    assert IngressEntries(ctx, pod, chain) == J + D + (L + T);
    var h1 := JumpToPolicies(h, ctx, pod, chain, ctx.policies).value;
    JumpToPoliciesAdvances(h, ctx, pod, chain, ctx.policies);
    var h2 := DefaultJumpUnlessTargeted(h1, ctx, pod, chain, DefaultIngressJump(pod.ip)).value;
    var h3 := EnsureAtHead(h2, chain, LocalSourceAccept(pod.ip), false).value;
    var h4 := EnsureAtHead(h3, chain, StatefulAccept, false).value;
    assert h4 == SetupPodIngressRules(h, ctx, pod, chain).value;
    DefaultJumpAdvances(h1, ctx, pod, chain, DefaultIngressJump(pod.ip));
    EnsureAtHeadAdvances(h2, chain, LocalSourceAccept(pod.ip), false);
    EnsureAtHeadAdvances(h3, chain, StatefulAccept, false);
    StepsAdvance(h, h1, h2, h3, h4, S, J, D, L, T);
  }

  lemma IngressInstalls(h: Host, ctx: Context, pod: PodInfo, chain: Chain)
    requires SetupPodIngressRules(h, ctx, pod, chain).Success?
    requires ExitOneFree(h)
    ensures Installed(SetupPodIngressRules(h, ctx, pod, chain).value.table, IngressEntries(ctx, pod, chain))
  {
    var S := {chain};
    var J := PolicyJumpEntries(ctx, pod, chain, ctx.policies);
    var D := DefaultEntries(ctx, pod, chain, DefaultIngressJump(pod.ip));
    var L := {(chain, LocalSourceAccept(pod.ip))};
    var T := {(chain, StatefulAccept)};
    assert IngressEntries(ctx, pod, chain) == J + D + (L + T);
    var h1 := JumpToPolicies(h, ctx, pod, chain, ctx.policies).value;
    JumpToPoliciesAdvances(h, ctx, pod, chain, ctx.policies);
    var h2 := DefaultJumpUnlessTargeted(h1, ctx, pod, chain, DefaultIngressJump(pod.ip)).value;
    var h3 := EnsureAtHead(h2, chain, LocalSourceAccept(pod.ip), false).value;
    var h4 := EnsureAtHead(h3, chain, StatefulAccept, false).value;
    assert h4 == SetupPodIngressRules(h, ctx, pod, chain).value;
    DefaultJumpAdvances(h1, ctx, pod, chain, DefaultIngressJump(pod.ip));
    EnsureAtHeadAdvances(h2, chain, LocalSourceAccept(pod.ip), false);
    EnsureAtHeadAdvances(h3, chain, StatefulAccept, false);
    InstalledOne(h3.table, chain, LocalSourceAccept(pod.ip));
    InstalledOne(h4.table, chain, StatefulAccept);
    StepsInstall(h1, h2, h3, h4, S, J, D, L, T);
  }

  /** Four steps that each advance within `scope` compose into one whose
      additions are the union of theirs. */
  lemma StepsAdvance(h: Host, h1: Host, h2: Host, h3: Host, h4: Host, scope: set<Chain>,
                     a1: set<Entry>, a2: set<Entry>, a3: set<Entry>, a4: set<Entry>)
    requires Advances(h, h1, scope, a1) && Advances(h1, h2, scope, a2)
    requires Advances(h2, h3, scope, a3) && Advances(h3, h4, scope, a4)
    ensures Advances(h, h4, scope, a1 + a2 + (a3 + a4))
  {
    var A := a1 + a2 + (a3 + a4);
    AdvancesWiden(h, h1, scope, a1, scope, A);
    AdvancesWiden(h1, h2, scope, a2, scope, A);
    AdvancesWiden(h2, h3, scope, a3, scope, A);
    AdvancesWiden(h3, h4, scope, a4, scope, A);
    AdvancesTrans(h, h1, h2, scope, A);
    AdvancesTrans(h, h2, h3, scope, A);
    AdvancesTrans(h, h3, h4, scope, A);
  }

  lemma InstalledOne(t: Table, c: Chain, r: Rule)
    requires Has(t, c, r)
    ensures Installed(t, {(c, r)})
  {
  }

  /** Entries installed by earlier steps survive the later ones. */
  lemma StepsInstall(h1: Host, h2: Host, h3: Host, h4: Host, scope: set<Chain>,
                     a1: set<Entry>, a2: set<Entry>, a3: set<Entry>, a4: set<Entry>)
    requires Installed(h1.table, a1)
    requires Advances(h1, h2, scope, a2) && Installed(h2.table, a2)
    requires Advances(h2, h3, scope, a3) && Installed(h3.table, a3)
    requires Advances(h3, h4, scope, a4) && Installed(h4.table, a4)
    ensures Installed(h4.table, a1 + a2 + (a3 + a4))
  {
    AdvancesKeeps(h1, h2, scope, a2, a1);
    AdvancesKeeps(h2, h3, scope, a3, a1 + a2);
    AdvancesKeeps(h3, h4, scope, a4, a1 + a2 + a3);
  }

  lemma IngressNoOp(h: Host, ctx: Context, pod: PodInfo, chain: Chain)
    requires h.faults == [] && Installed(h.table, IngressEntries(ctx, pod, chain))
    ensures SetupPodIngressRules(h, ctx, pod, chain) == Success(h)
  {
    JumpToPoliciesNoOp(h, ctx, pod, chain, ctx.policies);
    assert Has(h.table, chain, LocalSourceAccept(pod.ip));
    assert Has(h.table, chain, StatefulAccept);
    if !Targeted(ctx.policies, pod) {
      assert Has(h.table, chain, DefaultIngressJump(pod.ip));
    }
  }

  lemma IngressSucceeds(h: Host, ctx: Context, pod: PodInfo, chain: Chain)
    requires h.faults == [] && chain in h.table
    ensures SetupPodIngressRules(h, ctx, pod, chain).Success?
  {
    JumpToPoliciesSucceeds(h, ctx, pod, chain, ctx.policies);
    var h1 := JumpToPolicies(h, ctx, pod, chain, ctx.policies).value;
    var h2 := DefaultJumpUnlessTargeted(h1, ctx, pod, chain, DefaultIngressJump(pod.ip)).value;
    var h3 := EnsureAtHead(h2, chain, LocalSourceAccept(pod.ip), false).value;
  }

  // ----- egress -----

  lemma EgressAdvances(h: Host, ctx: Context, pod: PodInfo, chain: Chain)
    requires SetupPodEgressRules(h, ctx, pod, chain).Success?
    ensures Advances(h, SetupPodEgressRules(h, ctx, pod, chain).value, {chain}, EgressEntries(ctx, pod, chain))
  {
    var S := {chain};
    var J := PolicyJumpEntries(ctx, pod, chain, ctx.policies);
    var D := DefaultEntries(ctx, pod, chain, DefaultEgressJump(pod.ip));
    var T := {(chain, StatefulAccept)};
    var none: set<Entry> := {};
    assert EgressEntries(ctx, pod, chain) == J + D + (T + none);
    var h1 := JumpToPolicies(h, ctx, pod, chain, ctx.policies).value;
    JumpToPoliciesAdvances(h, ctx, pod, chain, ctx.policies);
    var h2 := DefaultJumpUnlessTargeted(h1, ctx, pod, chain, DefaultEgressJump(pod.ip)).value;
    var h3 := EnsureAtHead(h2, chain, StatefulAccept, false).value;
    assert h3 == SetupPodEgressRules(h, ctx, pod, chain).value;
    DefaultJumpAdvances(h1, ctx, pod, chain, DefaultEgressJump(pod.ip));
    EnsureAtHeadAdvances(h2, chain, StatefulAccept, false);
    AdvancesRefl(h3, S, none);
    StepsAdvance(h, h1, h2, h3, h3, S, J, D, T, none);
  }

  lemma EgressInstalls(h: Host, ctx: Context, pod: PodInfo, chain: Chain)
    requires SetupPodEgressRules(h, ctx, pod, chain).Success?
    requires ExitOneFree(h)
    ensures Installed(SetupPodEgressRules(h, ctx, pod, chain).value.table, EgressEntries(ctx, pod, chain))
  {
    var S := {chain};
    var J := PolicyJumpEntries(ctx, pod, chain, ctx.policies);
    var D := DefaultEntries(ctx, pod, chain, DefaultEgressJump(pod.ip));
    var T := {(chain, StatefulAccept)};
    var none: set<Entry> := {};
    assert EgressEntries(ctx, pod, chain) == J + D + (T + none);
    var h1 := JumpToPolicies(h, ctx, pod, chain, ctx.policies).value;
    JumpToPoliciesAdvances(h, ctx, pod, chain, ctx.policies);
    var h2 := DefaultJumpUnlessTargeted(h1, ctx, pod, chain, DefaultEgressJump(pod.ip)).value;
    var h3 := EnsureAtHead(h2, chain, StatefulAccept, false).value;
    assert h3 == SetupPodEgressRules(h, ctx, pod, chain).value;
    DefaultJumpAdvances(h1, ctx, pod, chain, DefaultEgressJump(pod.ip));
    EnsureAtHeadAdvances(h2, chain, StatefulAccept, false);
    InstalledOne(h3.table, chain, StatefulAccept);
    AdvancesRefl(h3, S, none);
    StepsInstall(h1, h2, h3, h3, S, J, D, T, none);
  }

  lemma EgressNoOp(h: Host, ctx: Context, pod: PodInfo, chain: Chain)
    requires h.faults == [] && Installed(h.table, EgressEntries(ctx, pod, chain))
    ensures SetupPodEgressRules(h, ctx, pod, chain) == Success(h)
  {
    JumpToPoliciesNoOp(h, ctx, pod, chain, ctx.policies);
    assert Has(h.table, chain, StatefulAccept);
    if !Targeted(ctx.policies, pod) {
      assert Has(h.table, chain, DefaultEgressJump(pod.ip));
    }
  }

  lemma EgressSucceeds(h: Host, ctx: Context, pod: PodInfo, chain: Chain)
    requires h.faults == [] && chain in h.table
    ensures SetupPodEgressRules(h, ctx, pod, chain).Success?
  {
    JumpToPoliciesSucceeds(h, ctx, pod, chain, ctx.policies);
    var h1 := JumpToPolicies(h, ctx, pod, chain, ctx.policies).value;
    var h2 := DefaultJumpUnlessTargeted(h1, ctx, pod, chain, DefaultEgressJump(pod.ip)).value;
  }

  // ----- interception -----

  lemma InboundAdvances(h: Host, pod: PodInfo, chain: Chain)
    requires InterceptPodInboundTraffic(h, pod, chain).Success?
    ensures Advances(h, InterceptPodInboundTraffic(h, pod, chain).value, {ForwardChain, OutputChain}, InboundEntries(pod, chain))
    ensures Installed(InterceptPodInboundTraffic(h, pod, chain).value.table, InboundEntries(pod, chain))
  {
    var e1 := (ForwardChain, InboundJump(pod, chain, false));
    var e2 := (OutputChain, InboundJump(pod, chain, false));
    var e3 := (ForwardChain, InboundJump(pod, chain, true));
    assert {e1.0, e2.0, e3.0} == {ForwardChain, OutputChain};
    assert InboundEntries(pod, chain) == {e1, e2, e3};
    var h1 := EnsureAtHead(h, e1.0, e1.1, false).value;
    var h2 := EnsureAtHead(h1, e2.0, e2.1, false).value;
    var h3 := EnsureAtHead(h2, e3.0, e3.1, false).value;
    assert h3 == InterceptPodInboundTraffic(h, pod, chain).value;
    EnsureAtHeadAdvances(h, e1.0, e1.1, false);
    EnsureAtHeadAdvances(h1, e2.0, e2.1, false);
    EnsureAtHeadAdvances(h2, e3.0, e3.1, false);
    HeadSteps(h, h1, h2, h3, e1, e2, e3);
  }

  /** Three head insertions, each of one entry, compose into one step that
      adds those entries and keeps each of them. */
  lemma HeadSteps(h: Host, h1: Host, h2: Host, h3: Host, e1: Entry, e2: Entry, e3: Entry)
    requires Advances(h, h1, {e1.0}, {e1}) && Has(h1.table, e1.0, e1.1)
    requires Advances(h1, h2, {e2.0}, {e2}) && Has(h2.table, e2.0, e2.1)
    requires Advances(h2, h3, {e3.0}, {e3}) && Has(h3.table, e3.0, e3.1)
    ensures Advances(h, h3, {e1.0, e2.0, e3.0}, {e1, e2, e3})
    ensures Installed(h3.table, {e1, e2, e3})
  {
    var S := {e1.0, e2.0, e3.0};
    var E := {e1, e2, e3};
    AdvancesWiden(h, h1, {e1.0}, {e1}, S, E);
    AdvancesWiden(h1, h2, {e2.0}, {e2}, S, E);
    AdvancesWiden(h2, h3, {e3.0}, {e3}, S, E);
    AdvancesTrans(h, h1, h2, S, E);
    AdvancesTrans(h, h2, h3, S, E);
    AdvancesKeeps(h1, h2, {e2.0}, {e2}, {e1});
    AdvancesKeeps(h2, h3, {e3.0}, {e3}, {e1, e2});
  }

  lemma InboundNoOp(h: Host, pod: PodInfo, chain: Chain)
    requires h.faults == [] && Installed(h.table, InboundEntries(pod, chain))
    ensures InterceptPodInboundTraffic(h, pod, chain) == Success(h)
  {
    assert Has(h.table, ForwardChain, InboundJump(pod, chain, false));
    assert Has(h.table, OutputChain, InboundJump(pod, chain, false));
    assert Has(h.table, ForwardChain, InboundJump(pod, chain, true));
  }

  lemma InboundSucceeds(h: Host, pod: PodInfo, chain: Chain)
    requires h.faults == [] && GlobalChains <= h.table.Keys
    ensures InterceptPodInboundTraffic(h, pod, chain).Success?
  {
    var h1 := EnsureAtHead(h, ForwardChain, InboundJump(pod, chain, false), false).value;
    var h2 := EnsureAtHead(h1, OutputChain, InboundJump(pod, chain, false), false).value;
  }

  lemma EgressFilterChainsSets(r: Rule)
    ensures ChainsOf(EgressFilterChains) == GlobalChains
    ensures EntriesFor(EgressFilterChains, r) == {(InputChain, r), (ForwardChain, r), (OutputChain, r)}
  {
    var cs := EgressFilterChains;
    assert cs[1..] == [ForwardChain, OutputChain];
    assert cs[1..][1..] == [OutputChain];
    assert cs[1..][1..][1..] == [];
    assert ChainsOf([OutputChain]) == {OutputChain};
    assert ChainsOf([ForwardChain, OutputChain]) == {ForwardChain, OutputChain};
    assert EntriesFor([OutputChain], r) == {(OutputChain, r)};
    assert EntriesFor([ForwardChain, OutputChain], r) == {(ForwardChain, r), (OutputChain, r)};
  }

  lemma OutboundAdvances(h: Host, pod: PodInfo, chain: Chain)
    requires InterceptPodOutboundTraffic(h, pod, chain).Success?
    ensures Advances(h, InterceptPodOutboundTraffic(h, pod, chain).value, GlobalChains, OutboundEntries(pod, chain))
    ensures Installed(InterceptPodOutboundTraffic(h, pod, chain).value.table, OutboundEntries(pod, chain))
  {
    var S := GlobalChains;
    var E := OutboundEntries(pod, chain);
    var routed := OutboundJump(pod, chain, false);
    var bridged := (ForwardChain, OutboundJump(pod, chain, true));
    EgressFilterChainsSets(routed);
    var h1 := AppendToEach(h, EgressFilterChains, routed).value;
    AppendToEachAdvances(h, EgressFilterChains, routed);
    var h2 := EnsureAtHead(h1, bridged.0, bridged.1, false).value;
    assert h2 == InterceptPodOutboundTraffic(h, pod, chain).value;
    EnsureAtHeadAdvances(h1, bridged.0, bridged.1, false);
    AdvancesWiden(h, h1, S, EntriesFor(EgressFilterChains, routed), S, E);
    AdvancesWiden(h1, h2, {bridged.0}, {bridged}, S, E);
    AdvancesTrans(h, h1, h2, S, E);
    AdvancesKeeps(h1, h2, {bridged.0}, {bridged}, EntriesFor(EgressFilterChains, routed));
  }

  lemma OutboundNoOp(h: Host, pod: PodInfo, chain: Chain)
    requires h.faults == [] && Installed(h.table, OutboundEntries(pod, chain))
    ensures InterceptPodOutboundTraffic(h, pod, chain) == Success(h)
  {
    EgressFilterChainsSets(OutboundJump(pod, chain, false));
    AppendToEachNoOp(h, EgressFilterChains, OutboundJump(pod, chain, false));
    assert Has(h.table, ForwardChain, OutboundJump(pod, chain, true));
  }

  lemma OutboundSucceeds(h: Host, pod: PodInfo, chain: Chain)
    requires h.faults == [] && GlobalChains <= h.table.Keys
    ensures InterceptPodOutboundTraffic(h, pod, chain).Success?
  {
    var routed := OutboundJump(pod, chain, false);
    EgressFilterChainsSets(routed);
    AppendToEachSucceeds(h, EgressFilterChains, routed);
    var h1 := AppendToEach(h, EgressFilterChains, routed).value;
  }

  // ----- drop tail -----

  lemma DropAdvances(h: Host, podName: string, podNamespace: string, chain: Chain)
    requires DropUnmarkedTrafficRules(h, podName, podNamespace, chain).Success?
    ensures Advances(h, DropUnmarkedTrafficRules(h, podName, podNamespace, chain).value, {chain}, DropEntries(podName, podNamespace, chain))
    ensures Installed(DropUnmarkedTrafficRules(h, podName, podNamespace, chain).value.table, DropEntries(podName, podNamespace, chain))
  {
    var S := {chain};
    var E := DropEntries(podName, podNamespace, chain);
    var log := LogUnmarked(podName, podNamespace);
    var reject := RejectUnmarked(podName, podNamespace);
    var h1 := AppendRule(h, chain, log).value;
    var h2 := AppendRule(h1, chain, reject).value;
    assert h2 == DropUnmarkedTrafficRules(h, podName, podNamespace, chain).value;
    AppendRuleAdvances(h, chain, log);
    AppendRuleAdvances(h1, chain, reject);
    AdvancesWiden(h, h1, S, {(chain, log)}, S, E);
    AdvancesWiden(h1, h2, S, {(chain, reject)}, S, E);
    AdvancesTrans(h, h1, h2, S, E);
    AdvancesKeeps(h1, h2, S, {(chain, reject)}, {(chain, log)});
  }

  lemma DropNoOp(h: Host, podName: string, podNamespace: string, chain: Chain)
    requires h.faults == [] && Installed(h.table, DropEntries(podName, podNamespace, chain))
    ensures DropUnmarkedTrafficRules(h, podName, podNamespace, chain) == Success(h)
  {
    assert Has(h.table, chain, LogUnmarked(podName, podNamespace));
    assert Has(h.table, chain, RejectUnmarked(podName, podNamespace));
  }

  lemma DropSucceeds(h: Host, podName: string, podNamespace: string, chain: Chain)
    requires h.faults == [] && chain in h.table
    ensures DropUnmarkedTrafficRules(h, podName, podNamespace, chain).Success?
  {
    var h1 := AppendRule(h, chain, LogUnmarked(podName, podNamespace)).value;
  }

  /** Appending a rule of a kind the chain does not hold yet puts it last. */
  lemma AppendsLast(h: Host, chain: Chain, r: Rule)
    requires AppendRule(h, chain, r).Success?
    requires r !in Rules(h.table, chain)
    ensures Rules(AppendRule(h, chain, r).value.table, chain) == Rules(h.table, chain) + [r]
  {
    assert !Has(h.table, chain, r);
  }

  lemma NotInAppended(body: seq<Rule>, tail: seq<Rule>, r: Rule)
    requires r !in body && r !in tail
    ensures r !in body + tail
  {
  }

  /** On a chain holding neither drop rule, the log rule and then the reject
      rule end up as its last two rules. */
  lemma DropTailOrder(h: Host, podName: string, podNamespace: string, chain: Chain)
    requires DropUnmarkedTrafficRules(h, podName, podNamespace, chain).Success?
    requires !Has(h.table, chain, LogUnmarked(podName, podNamespace))
    requires !Has(h.table, chain, RejectUnmarked(podName, podNamespace))
    ensures Rules(DropUnmarkedTrafficRules(h, podName, podNamespace, chain).value.table, chain)
         == Rules(h.table, chain) + [LogUnmarked(podName, podNamespace), RejectUnmarked(podName, podNamespace)]
  {
    var log := LogUnmarked(podName, podNamespace);
    var reject := RejectUnmarked(podName, podNamespace);
    assert log !in Rules(h.table, chain) && reject !in Rules(h.table, chain);
    AppendsTwoLast(h, chain, log, reject, DropUnmarkedTrafficRules(h, podName, podNamespace, chain).value);
  }

  /** Two distinct rules the chain lacks, appended one after the other, end
      up as its last two rules in that order. */
  lemma AppendsTwoLast(h: Host, c: Chain, a: Rule, b: Rule, h2: Host)
    requires a !in Rules(h.table, c) && b !in Rules(h.table, c) && a != b
    requires AppendRule(h, c, a).Success?
    requires AppendRule(AppendRule(h, c, a).value, c, b) == Success(h2)
    ensures Rules(h2.table, c) == Rules(h.table, c) + [a, b]
  {
    var h1 := AppendRule(h, c, a).value;
    AppendsLast(h, c, a);
    NotInAppended(Rules(h.table, c), [a], b);
    AppendsLast(h1, c, b);
    AppendTwo(Rules(h.table, c), a, b);
  }

  lemma AppendTwo(body: seq<Rule>, a: Rule, b: Rule)
    ensures body + [a] + [b] == body + [a, b]
  {
  }

  // ----- the properties the pod chain relies on -----

  /** Rules of different kinds never coincide, so an entry set is told
      apart by the kind of its rules. */
  lemma DefaultIngressNotOtherwiseRequired(ctx: Context, pod: PodInfo, chain: Chain)
    ensures (chain, DefaultIngressJump(pod.ip)) in IngressEntries(ctx, pod, chain) <==> !Targeted(ctx.policies, pod)
    ensures (chain, DefaultEgressJump(pod.ip)) in EgressEntries(ctx, pod, chain) <==> !Targeted(ctx.policies, pod)
    ensures (chain, DefaultEgressJump(pod.ip)) !in IngressEntries(ctx, pod, chain)
  {
  }

  /**
    After the ingress step on a chain without duplicates: every policy that
    targets the pod has its jump exactly once, the local-source and stateful
    accepts are there exactly once, no rule is duplicated, and a default
    ingress jump that was absent is present afterwards iff no policy targets
    the pod.
   */
  lemma IngressRulesOnce(h: Host, ctx: Context, pod: PodInfo, chain: Chain)
    requires SetupPodIngressRules(h, ctx, pod, chain).Success?
    requires ExitOneFree(h) && NoDuplicates(h.table, chain)
    ensures var t := SetupPodIngressRules(h, ctx, pod, chain).value.table;
      && NoDuplicates(t, chain)
      && (forall p | p in ctx.policies && Targets(p, pod) :: Count(t, chain, PolicyJumpRule(ctx, p)) == 1)
      && Count(t, chain, LocalSourceAccept(pod.ip)) == 1
      && Count(t, chain, StatefulAccept) == 1
      && (!Has(h.table, chain, DefaultIngressJump(pod.ip))
          ==> (Has(t, chain, DefaultIngressJump(pod.ip)) <==> !Targeted(ctx.policies, pod)))
  {
    var h' := SetupPodIngressRules(h, ctx, pod, chain).value;
    var E := IngressEntries(ctx, pod, chain);
    IngressAdvances(h, ctx, pod, chain);
    IngressInstalls(h, ctx, pod, chain);
    AdvancesNoDuplicates(h, h', {chain}, E, chain);
    OnceWhereInstalled(h'.table, chain, E);
    DefaultIngressNotOtherwiseRequired(ctx, pod, chain);
  }

  /** In a chain without duplicates, every installed rule occurs exactly once. */
  lemma OnceWhereInstalled(t: Table, c: Chain, es: set<Entry>)
    requires NoDuplicates(t, c) && Installed(t, es)
    ensures forall r | (c, r) in es :: Count(t, c, r) == 1
  {
    forall r | (c, r) in es
      ensures Count(t, c, r) == 1
    {
      assert Has(t, c, (c, r).1);
      assert Count(t, c, r) <= 1;
    }
  }

  /**
    Ingress then egress on one pod chain, as the synchronisation runs them:
    the policy jumps and the stateful accept the egress step needs were left
    by the ingress step, so it adds no second copy of any of them. Afterwards
    every targeting policy's jump is there exactly once, no rule is
    duplicated, and each absent default jump is present iff no policy targets
    the pod.
   */
  lemma EgressAddsNoSecondCopy(h: Host, ctx: Context, pod: PodInfo, chain: Chain)
    requires SetupPodIngressRules(h, ctx, pod, chain).Success?
    requires SetupPodEgressRules(SetupPodIngressRules(h, ctx, pod, chain).value, ctx, pod, chain).Success?
    requires ExitOneFree(h) && NoDuplicates(h.table, chain)
    ensures var t := SetupPodEgressRules(SetupPodIngressRules(h, ctx, pod, chain).value, ctx, pod, chain).value.table;
      && NoDuplicates(t, chain)
      && (forall p | p in ctx.policies && Targets(p, pod) :: Count(t, chain, PolicyJumpRule(ctx, p)) == 1)
      && Count(t, chain, LocalSourceAccept(pod.ip)) == 1
      && Count(t, chain, StatefulAccept) == 1
      && (!Has(h.table, chain, DefaultIngressJump(pod.ip))
          ==> (Has(t, chain, DefaultIngressJump(pod.ip)) <==> !Targeted(ctx.policies, pod)))
      && (!Has(h.table, chain, DefaultEgressJump(pod.ip))
          ==> (Has(t, chain, DefaultEgressJump(pod.ip)) <==> !Targeted(ctx.policies, pod)))
  {
    var h1 := SetupPodIngressRules(h, ctx, pod, chain).value;
    var h2 := SetupPodEgressRules(h1, ctx, pod, chain).value;
    var E1 := IngressEntries(ctx, pod, chain);
    var E2 := EgressEntries(ctx, pod, chain);
    IngressRulesOnce(h, ctx, pod, chain);
    IngressAdvances(h, ctx, pod, chain);
    IngressInstalls(h, ctx, pod, chain);
    EgressAdvances(h1, ctx, pod, chain);
    EgressInstalls(h1, ctx, pod, chain);
    AdvancesKeeps(h1, h2, {chain}, E2, E1);
    AdvancesNoDuplicates(h1, h2, {chain}, E2, chain);
    OnceWhereInstalled(h2.table, chain, E1);
    DefaultIngressNotOtherwiseRequired(ctx, pod, chain);
    if !Has(h.table, chain, DefaultIngressJump(pod.ip)) && Targeted(ctx.policies, pod) {
      assert Count(h1.table, chain, DefaultIngressJump(pod.ip)) == 0;
      assert (chain, DefaultIngressJump(pod.ip)) !in E2;
    }
    if !Has(h.table, chain, DefaultEgressJump(pod.ip)) {
      assert Count(h1.table, chain, DefaultEgressJump(pod.ip)) == 0;
    }
  }

  /**
    Inbound interception leaves its three jumps each exactly once where at
    most one copy was before, touches no chain other than FORWARD and OUTPUT
    and adds no other rule.
   */
  lemma InboundInterception(h: Host, pod: PodInfo, chain: Chain)
    requires InterceptPodInboundTraffic(h, pod, chain).Success?
    ensures var t := InterceptPodInboundTraffic(h, pod, chain).value.table;
      && (forall e | e in InboundEntries(pod, chain) && Count(h.table, e.0, e.1) <= 1 :: Count(t, e.0, e.1) == 1)
      && (forall c | c in h.table && c !in {ForwardChain, OutputChain} :: t[c] == h.table[c])
      && (forall c, r | Count(t, c, r) != Count(h.table, c, r) :: Count(h.table, c, r) == 0 && (c, r) in InboundEntries(pod, chain))
  {
    InboundAdvances(h, pod, chain);
    AdvancesMeaning(h, InterceptPodInboundTraffic(h, pod, chain).value, {ForwardChain, OutputChain}, InboundEntries(pod, chain));
  }

  /**
    Outbound interception leaves its four jumps each exactly once where at
    most one copy was before, touches no chain outside INPUT, FORWARD and
    OUTPUT, and adds no other rule.
   */
  lemma OutboundInterception(h: Host, pod: PodInfo, chain: Chain)
    requires InterceptPodOutboundTraffic(h, pod, chain).Success?
    ensures var t := InterceptPodOutboundTraffic(h, pod, chain).value.table;
      && (forall e | e in OutboundEntries(pod, chain) && Count(h.table, e.0, e.1) <= 1 :: Count(t, e.0, e.1) == 1)
      && (forall c | c in h.table && c !in GlobalChains :: t[c] == h.table[c])
      && (forall c, r | Count(t, c, r) != Count(h.table, c, r) :: Count(h.table, c, r) == 0 && (c, r) in OutboundEntries(pod, chain))
  {
    OutboundAdvances(h, pod, chain);
    AdvancesMeaning(h, InterceptPodOutboundTraffic(h, pod, chain).value, GlobalChains, OutboundEntries(pod, chain));
  }
}

=== FILE: pod_rules.dfy ===
/**
  The rule builders of the pod firewall: which rules each step must leave in
  which chain (the `...Entries` sets), and the steps themselves, which
  establish those rules through the executor primitives.

  Every step but the drop tail checks existence before it inserts, so a
  rule is added only where it is absent. Head insertion is order-sensitive;
  the properties below speak of presence and multiplicity, never of the
  relative order of head-inserted rules.
 */
module PodRules {
  import opened Outcomes
  import opened Netfilter
  import opened Pods
  import opened ChainNames

  /** What one synchronisation pass is given: the node's address, the
      generation tag, the resolved policies, and the two uninterpreted chain
      namers (the pod-chain digest and the policy-chain name function, which
      is defined outside this model). */
  datatype Context = Context(
    nodeIP: string,
    version: string,
    policies: seq<PolicyInfo>,
    digest: Digest,
    policyChainName: (string, string, string) -> Chain)

  // ----- what must exist -----

  predicate Targets(p: PolicyInfo, pod: PodInfo) {
    pod.ip in p.targetPods
  }

  /** Some policy of `ps` targets the pod. */
  predicate Targeted(ps: seq<PolicyInfo>, pod: PodInfo) {
    exists p | p in ps :: Targets(p, pod)
  }

  function PolicyJumpRule(ctx: Context, p: PolicyInfo): Rule {
    PolicyJump(p.name, ctx.policyChainName(p.namespace, p.name, ctx.version))
  }

  /** A jump in the pod chain to the chain of every policy of `ps` that targets the pod. */
  function PolicyJumpEntries(ctx: Context, pod: PodInfo, chain: Chain, ps: seq<PolicyInfo>): set<Entry> {
    set p | p in ps && Targets(p, pod) :: (chain, PolicyJumpRule(ctx, p))
  }

  /** The default jump `r`, required only when no policy targets the pod. */
  function DefaultEntries(ctx: Context, pod: PodInfo, chain: Chain, r: Rule): set<Entry> {
    if Targeted(ctx.policies, pod) then {} else {(chain, r)}
  }

  /** Rules the ingress step must leave in the pod chain. */
  function IngressEntries(ctx: Context, pod: PodInfo, chain: Chain): set<Entry> {
    PolicyJumpEntries(ctx, pod, chain, ctx.policies)
    + DefaultEntries(ctx, pod, chain, DefaultIngressJump(pod.ip))
    + {(chain, LocalSourceAccept(pod.ip)), (chain, StatefulAccept)}
  }

  /** Rules the egress step must leave in the pod chain. */
  function EgressEntries(ctx: Context, pod: PodInfo, chain: Chain): set<Entry> {
    PolicyJumpEntries(ctx, pod, chain, ctx.policies)
    + DefaultEntries(ctx, pod, chain, DefaultEgressJump(pod.ip))
    + {(chain, StatefulAccept)}
  }

  function InboundJump(pod: PodInfo, chain: Chain, bridged: bool): Rule {
    DestinationJump(pod.name, pod.namespace, pod.ip, chain, bridged)
  }

  function OutboundJump(pod: PodInfo, chain: Chain, bridged: bool): Rule {
    SourceJump(pod.name, pod.namespace, pod.ip, chain, bridged)
  }

  /** Chains that outbound interception appends to, in order. */
  const EgressFilterChains: seq<Chain> := [InputChain, ForwardChain, OutputChain]

  /** Destination-matched jumps to the pod chain: routed in FORWARD and
      OUTPUT, bridged in FORWARD. */
  function InboundEntries(pod: PodInfo, chain: Chain): set<Entry> {
    {(ForwardChain, InboundJump(pod, chain, false)),
     (OutputChain, InboundJump(pod, chain, false)),
     (ForwardChain, InboundJump(pod, chain, true))}
  }

  /** Source-matched jumps to the pod chain: routed in INPUT, FORWARD and
      OUTPUT, bridged in FORWARD. */
  function OutboundEntries(pod: PodInfo, chain: Chain): set<Entry> {
    {(InputChain, OutboundJump(pod, chain, false)),
     (ForwardChain, OutboundJump(pod, chain, false)),
     (OutputChain, OutboundJump(pod, chain, false)),
     (ForwardChain, OutboundJump(pod, chain, true))}
  }

  /** The log and reject rules for packets without the provisional-pass mark. */
  function DropEntries(podName: string, podNamespace: string, chain: Chain): set<Entry> {
    {(chain, LogUnmarked(podName, podNamespace)), (chain, RejectUnmarked(podName, podNamespace))}
  }

  // ----- the steps -----

  /** Exists, then Insert at position 1 when absent. With `tolerate`, an insert
      failing with the conflict status is ignored, as the source does for
      policy and default jumps. */
  function EnsureAtHead(h: Host, c: Chain, r: Rule, tolerate: bool): (res: Outcome<Host>)
    ensures res.Success? ==> res.value.table.Keys == h.table.Keys && Later(h, res.value)
    ensures res.Success? && !tolerate ==> Has(res.value.table, c, r)
    ensures res.Success? && ExitOneFree(h) && c in h.table ==> Has(res.value.table, c, r)
    ensures h.faults == [] && Has(h.table, c, r) ==> res == Success(h)
    ensures h.faults == [] && c in h.table ==> res.Success?
  {
    var probe := Exists(h, c, r);
    if probe.status.Failed? then Failure(probe.status.exitStatus)
    else if probe.found then Success(probe.host)
    else
      var ins := Insert(probe.host, c, r);
      if ins.status.Done? then Success(ins.host)
      else if tolerate && ins.status.exitStatus == ConflictStatus then Success(ins.host)
      else Failure(ins.status.exitStatus)
  }

  /** The head insertion adds at most its own rule, once, to its own chain. */
  lemma EnsureAtHeadAdvances(h: Host, c: Chain, r: Rule, tolerate: bool)
    requires EnsureAtHead(h, c, r, tolerate).Success?
    ensures Advances(h, EnsureAtHead(h, c, r, tolerate).value, {c}, {(c, r)})
  {
    var probe := Exists(h, c, r);
    UnchangedAdvances(h, probe.host, {c}, {(c, r)});
    if probe.status.Done? && !probe.found {
      InsertAdvances(probe.host, c, r);
      AdvancesTrans(h, probe.host, Insert(probe.host, c, r).host, {c}, {(c, r)});
    }
  }

  /** AppendUnique, with a failed command turned into a failed step. */
  function AppendRule(h: Host, c: Chain, r: Rule): (res: Outcome<Host>)
    ensures res.Success? ==> res.value.table.Keys == h.table.Keys && Later(h, res.value)
    ensures res.Success? ==> Has(res.value.table, c, r)
    ensures res.Success? && !Has(h.table, c, r) ==> Rules(res.value.table, c) == Rules(h.table, c) + [r]
    ensures h.faults == [] && Has(h.table, c, r) ==> res == Success(h)
    ensures h.faults == [] && c in h.table ==> res.Success?
  {
    var rep := AppendUnique(h, c, r);
    if rep.status.Failed? then Failure(rep.status.exitStatus) else Success(rep.host)
  }

  lemma AppendRuleAdvances(h: Host, c: Chain, r: Rule)
    requires AppendRule(h, c, r).Success?
    ensures Advances(h, AppendRule(h, c, r).value, {c}, {(c, r)})
  {
    AppendUniqueAdvances(h, c, r);
  }

  /** Exists, then AppendUnique when absent. */
  function EnsureAppended(h: Host, c: Chain, r: Rule): (res: Outcome<Host>)
    ensures res.Success? ==> res.value.table.Keys == h.table.Keys && Later(h, res.value)
    ensures res.Success? ==> Has(res.value.table, c, r)
    ensures h.faults == [] && Has(h.table, c, r) ==> res == Success(h)
    ensures h.faults == [] && c in h.table ==> res.Success?
  {
    var probe := Exists(h, c, r);
    if probe.status.Failed? then Failure(probe.status.exitStatus)
    else if probe.found then Success(probe.host)
    else
      AppendRule(probe.host, c, r)
  }

  lemma EnsureAppendedAdvances(h: Host, c: Chain, r: Rule)
    requires EnsureAppended(h, c, r).Success?
    ensures Advances(h, EnsureAppended(h, c, r).value, {c}, {(c, r)})
  {
    var probe := Exists(h, c, r);
    UnchangedAdvances(h, probe.host, {c}, {(c, r)});
    if probe.status.Done? && !probe.found {
      AppendRuleAdvances(probe.host, c, r);
      AdvancesTrans(h, probe.host, AppendRule(probe.host, c, r).value, {c}, {(c, r)});
    }
  }

  /** The loop over the egress filter chains: ensures `r` is appended in each. */
  function AppendToEach(h: Host, chains: seq<Chain>, r: Rule): (res: Outcome<Host>)
    ensures res.Success? ==> res.value.table.Keys == h.table.Keys && Later(h, res.value)
    ensures res.Success? ==> forall c | c in chains :: c in h.table
    decreases |chains|
  {
    if |chains| == 0 then Success(h)
    else
      var h1 :- EnsureAppended(h, chains[0], r);
      var h2 :- AppendToEach(h1, chains[1..], r);
      Success(h2)
  }

  /** The loop over the policies: a head jump to the chain of each policy
      that targets the pod. The source's "policies present" flag, read only
      after a loop without failure, equals `Targeted`. */
  function JumpToPolicies(h: Host, ctx: Context, pod: PodInfo, chain: Chain, ps: seq<PolicyInfo>): (res: Outcome<Host>)
    ensures res.Success? ==> res.value.table.Keys == h.table.Keys && Later(h, res.value)
    decreases |ps|
  {
    if |ps| == 0 then Success(h)
    else if !Targets(ps[0], pod) then JumpToPolicies(h, ctx, pod, chain, ps[1..])
    else
      var h1 :- EnsureAtHead(h, chain, PolicyJumpRule(ctx, ps[0]), true);
      var h2 :- JumpToPolicies(h1, ctx, pod, chain, ps[1..]);
      Success(h2)
  }

  /** The jump to a default policy chain, inserted only when no policy
      targets the pod; a conflict status from the insert is tolerated. */
  function DefaultJumpUnlessTargeted(h: Host, ctx: Context, pod: PodInfo, chain: Chain, r: Rule): (res: Outcome<Host>)
    ensures res.Success? ==> res.value.table.Keys == h.table.Keys && Later(h, res.value)
    ensures res.Success? && ExitOneFree(h) && chain in h.table ==> Installed(res.value.table, DefaultEntries(ctx, pod, chain, r))
    ensures Targeted(ctx.policies, pod) ==> res == Success(h)
    ensures h.faults == [] && Has(h.table, chain, r) ==> res == Success(h)
    ensures h.faults == [] && chain in h.table ==> res.Success?
  {
    if Targeted(ctx.policies, pod) then Success(h)
    else EnsureAtHead(h, chain, r, true)
  }

  lemma DefaultJumpAdvances(h: Host, ctx: Context, pod: PodInfo, chain: Chain, r: Rule)
    requires DefaultJumpUnlessTargeted(h, ctx, pod, chain, r).Success?
    ensures Advances(h, DefaultJumpUnlessTargeted(h, ctx, pod, chain, r).value, {chain}, DefaultEntries(ctx, pod, chain, r))
  {
    if Targeted(ctx.policies, pod) {
      AdvancesRefl(h, {chain}, {});
    } else {
      EnsureAtHeadAdvances(h, chain, r, true);
    }
  }

  /** Runs the pod's inbound traffic through the targeting policies, or the
      default ingress chain when none targets it, then admits node-local and
      established traffic. */
  function SetupPodIngressRules(h: Host, ctx: Context, pod: PodInfo, chain: Chain): (res: Outcome<Host>)
    ensures res.Success? ==> res.value.table.Keys == h.table.Keys && chain in h.table
    ensures res.Success? ==> Later(h, res.value)
  {
    var h1 :- JumpToPolicies(h, ctx, pod, chain, ctx.policies);
    var h2 :- DefaultJumpUnlessTargeted(h1, ctx, pod, chain, DefaultIngressJump(pod.ip));
    var h3 :- EnsureAtHead(h2, chain, LocalSourceAccept(pod.ip), false);
    var h4 :- EnsureAtHead(h3, chain, StatefulAccept, false);
    Success(h4)
  }

  /** Runs the pod's outbound traffic through the targeting policies, or the
      default egress chain when none targets it, then admits established
      traffic. */
  function SetupPodEgressRules(h: Host, ctx: Context, pod: PodInfo, chain: Chain): (res: Outcome<Host>)
    ensures res.Success? ==> res.value.table.Keys == h.table.Keys && chain in h.table
    ensures res.Success? ==> Later(h, res.value)
  {
    var h1 :- JumpToPolicies(h, ctx, pod, chain, ctx.policies);
    var h2 :- DefaultJumpUnlessTargeted(h1, ctx, pod, chain, DefaultEgressJump(pod.ip));
    var h3 :- EnsureAtHead(h2, chain, StatefulAccept, false);
    Success(h3)
  }

  /** Sends traffic destined to the pod through the pod chain. */
  function InterceptPodInboundTraffic(h: Host, pod: PodInfo, chain: Chain): (res: Outcome<Host>)
    ensures res.Success? ==> res.value.table.Keys == h.table.Keys
    ensures res.Success? ==> ForwardChain in h.table && OutputChain in h.table
    ensures res.Success? ==> Later(h, res.value)
  {
    var h1 :- EnsureAtHead(h, ForwardChain, InboundJump(pod, chain, false), false);
    var h2 :- EnsureAtHead(h1, OutputChain, InboundJump(pod, chain, false), false);
    var h3 :- EnsureAtHead(h2, ForwardChain, InboundJump(pod, chain, true), false);
    Success(h3)
  }

  /** Sends traffic from the pod through the pod chain. */
  function InterceptPodOutboundTraffic(h: Host, pod: PodInfo, chain: Chain): (res: Outcome<Host>)
    ensures res.Success? ==> res.value.table.Keys == h.table.Keys && GlobalChains <= h.table.Keys
    ensures res.Success? ==> Later(h, res.value)
  {
    var h1 :- AppendToEach(h, EgressFilterChains, OutboundJump(pod, chain, false));
    var h2 :- EnsureAtHead(h1, ForwardChain, OutboundJump(pod, chain, true), false);
    Success(h2)
  }

  /** Appends the log and reject rules for packets no policy marked. */
  function DropUnmarkedTrafficRules(h: Host, podName: string, podNamespace: string, chain: Chain): (res: Outcome<Host>)
    ensures res.Success? ==> res.value.table.Keys == h.table.Keys && chain in h.table
    ensures res.Success? ==> Later(h, res.value)
  {
    var h1 :- AppendRule(h, chain, LogUnmarked(podName, podNamespace));
    var h2 :- AppendRule(h1, chain, RejectUnmarked(podName, podNamespace));
    Success(h2)
  }

  // ----- lemmas about the loops -----

  /** The chains of a list, as a set. */
  function ChainsOf(chains: seq<Chain>): set<Chain>
    decreases |chains|
  {
    if |chains| == 0 then {} else {chains[0]} + ChainsOf(chains[1..])
  }

  /** Rule `r` in each chain of a list. */
  function EntriesFor(chains: seq<Chain>, r: Rule): set<Entry>
    decreases |chains|
  {
    if |chains| == 0 then {} else {(chains[0], r)} + EntriesFor(chains[1..], r)
  }

  lemma {:induction false} AppendToEachAdvances(h: Host, chains: seq<Chain>, r: Rule)
    requires AppendToEach(h, chains, r).Success?
    ensures Advances(h, AppendToEach(h, chains, r).value, ChainsOf(chains), EntriesFor(chains, r))
    ensures Installed(AppendToEach(h, chains, r).value.table, EntriesFor(chains, r))
    decreases |chains|
  {
    var S := ChainsOf(chains);
    var A := EntriesFor(chains, r);
    if |chains| == 0 {
      AdvancesRefl(h, S, A);
    } else {
      var h1 := EnsureAppended(h, chains[0], r).value;
      var h2 := AppendToEach(h1, chains[1..], r).value;
      EnsureAppendedAdvances(h, chains[0], r);
      AppendToEachAdvances(h1, chains[1..], r);
      AdvancesWiden(h, h1, {chains[0]}, {(chains[0], r)}, S, A);
      AdvancesWiden(h1, h2, ChainsOf(chains[1..]), EntriesFor(chains[1..], r), S, A);
      AdvancesTrans(h, h1, h2, S, A);
      AdvancesKeeps(h1, h2, ChainsOf(chains[1..]), EntriesFor(chains[1..], r), {(chains[0], r)});
    }
  }

  lemma {:induction false} AppendToEachNoOp(h: Host, chains: seq<Chain>, r: Rule)
    requires h.faults == []
    requires Installed(h.table, EntriesFor(chains, r))
    ensures AppendToEach(h, chains, r) == Success(h)
    decreases |chains|
  {
    if |chains| > 0 {
      AppendToEachNoOp(h, chains[1..], r);
    }
  }

  lemma {:induction false} AppendToEachSucceeds(h: Host, chains: seq<Chain>, r: Rule)
    requires h.faults == []
    requires ChainsOf(chains) <= h.table.Keys
    ensures AppendToEach(h, chains, r).Success?
    decreases |chains|
  {
    if |chains| > 0 {
      var h1 := EnsureAppended(h, chains[0], r).value;
      AppendToEachSucceeds(h1, chains[1..], r);
    }
  }

  /** Splits the policy-jump entries of a non-empty list at its head. */
  lemma PolicyJumpEntriesCons(ctx: Context, pod: PodInfo, chain: Chain, ps: seq<PolicyInfo>)
    requires |ps| > 0
    ensures PolicyJumpEntries(ctx, pod, chain, ps)
         == (if Targets(ps[0], pod) then {(chain, PolicyJumpRule(ctx, ps[0]))} else {})
            + PolicyJumpEntries(ctx, pod, chain, ps[1..])
  {
    assert ps == [ps[0]] + ps[1..];
    assert forall p :: p in ps <==> p == ps[0] || p in ps[1..];
  }

  lemma {:induction false} JumpToPoliciesAdvances(h: Host, ctx: Context, pod: PodInfo, chain: Chain, ps: seq<PolicyInfo>)
    requires JumpToPolicies(h, ctx, pod, chain, ps).Success?
    ensures Advances(h, JumpToPolicies(h, ctx, pod, chain, ps).value, {chain}, PolicyJumpEntries(ctx, pod, chain, ps))
    ensures ExitOneFree(h) && chain in h.table
        ==> Installed(JumpToPolicies(h, ctx, pod, chain, ps).value.table, PolicyJumpEntries(ctx, pod, chain, ps))
    decreases |ps|
  {
    var E := PolicyJumpEntries(ctx, pod, chain, ps);
    var h' := JumpToPolicies(h, ctx, pod, chain, ps).value;
    if |ps| == 0 {
      AdvancesRefl(h, {chain}, E);
    } else {
      PolicyJumpEntriesCons(ctx, pod, chain, ps);
      var E' := PolicyJumpEntries(ctx, pod, chain, ps[1..]);
      if !Targets(ps[0], pod) {
        JumpToPoliciesAdvances(h, ctx, pod, chain, ps[1..]);
      } else {
        var rule := PolicyJumpRule(ctx, ps[0]);
        var h1 := EnsureAtHead(h, chain, rule, true).value;
        EnsureAtHeadAdvances(h, chain, rule, true);
        JumpToPoliciesAdvances(h1, ctx, pod, chain, ps[1..]);
        ConsStep(h, h1, h', chain, (chain, rule), E');
      }
    }
  }

  /** One entry's step followed by the rest of a loop within the same chain
      adds the entry and the rest's entries; an entry present after the step
      survives the rest. */
  lemma ConsStep(h: Host, h1: Host, h': Host, chain: Chain, e: Entry, rest: set<Entry>)
    requires Advances(h, h1, {chain}, {e}) && Advances(h1, h', {chain}, rest)
    ensures Advances(h, h', {chain}, {e} + rest)
    ensures Has(h1.table, e.0, e.1) && Installed(h'.table, rest) ==> Installed(h'.table, {e} + rest)
  {
    AdvancesWiden(h, h1, {chain}, {e}, {chain}, {e} + rest);
    AdvancesWiden(h1, h', {chain}, rest, {chain}, {e} + rest);
    AdvancesTrans(h, h1, h', {chain}, {e} + rest);
    if Has(h1.table, e.0, e.1) {
      AdvancesKeeps(h1, h', {chain}, rest, {e});
    }
  }

  lemma {:induction false} JumpToPoliciesNoOp(h: Host, ctx: Context, pod: PodInfo, chain: Chain, ps: seq<PolicyInfo>)
    requires h.faults == [] && Installed(h.table, PolicyJumpEntries(ctx, pod, chain, ps))
    ensures JumpToPolicies(h, ctx, pod, chain, ps) == Success(h)
    decreases |ps|
  {
    if |ps| > 0 {
      PolicyJumpEntriesCons(ctx, pod, chain, ps);
      JumpToPoliciesNoOp(h, ctx, pod, chain, ps[1..]);
    }
  }

  lemma {:induction false} JumpToPoliciesSucceeds(h: Host, ctx: Context, pod: PodInfo, chain: Chain, ps: seq<PolicyInfo>)
    requires h.faults == [] && chain in h.table
    ensures JumpToPolicies(h, ctx, pod, chain, ps).Success?
    decreases |ps|
  {
    if |ps| > 0 {
      if Targets(ps[0], pod) {
        var h1 := EnsureAtHead(h, chain, PolicyJumpRule(ctx, ps[0]), true).value;
        JumpToPoliciesSucceeds(h1, ctx, pod, chain, ps[1..]);
      } else {
        JumpToPoliciesSucceeds(h, ctx, pod, chain, ps[1..]);
      }
    }
  }
}

=== FILE: pods.dfy ===
/**
  Pods as the informer cache delivers them, the per-sync pod snapshot, the
  resolved network-policy membership, and the local-pod filter.
 */
module Pods {

  /** The fields of a Kubernetes pod object the controller reads. */
  datatype Pod = Pod(
    name: string,
    namespace: string,
    labels: map<string, string>,
    phase: string,
    podIP: string,
    hostIP: string)

  /** Snapshot of a local pod, keyed by its address. */
  datatype PodInfo = PodInfo(ip: string, name: string, namespace: string, labels: map<string, string>)

  /** A resolved network policy: only its identity and the addresses of the
      pods it targets matter here. */
  datatype PolicyInfo = PolicyInfo(name: string, namespace: string, targetPods: set<string>)

  /** The pod runs on the node with address `nodeIP` and has an address. */
  predicate IsLocal(p: Pod, nodeIP: string) {
    p.hostIP == nodeIP && |p.podIP| != 0
  }

  function InfoOf(p: Pod): PodInfo {
    PodInfo(p.podIP, p.name, p.namespace, p.labels)
  }

  /** Pod `pods[i]` is local and has address `ip`. */
  predicate ClaimsAt(pods: seq<Pod>, nodeIP: string, ip: string, i: int) {
    0 <= i < |pods| && IsLocal(pods[i], nodeIP) && pods[i].podIP == ip
  }

  /** Pod `pods[i]` is local with address `ip` and no later pod claims it. */
  ghost predicate LastLocalWith(pods: seq<Pod>, nodeIP: string, ip: string, i: int) {
    && ClaimsAt(pods, nodeIP, ip, i)
    && forall j | i < j < |pods| :: !ClaimsAt(pods, nodeIP, ip, j)
  }

  /** `local` holds exactly the local pods of `pods`, each under its own
      address and built from the last local pod that claims that address. */
  ghost predicate LocalPodsOf(pods: seq<Pod>, nodeIP: string, local: map<string, PodInfo>) {
    && (forall ip :: ip in local <==> exists i :: ClaimsAt(pods, nodeIP, ip, i))
    && (forall ip | ip in local :: local[ip].ip == ip)
    && (forall ip | ip in local :: exists i :: LastLocalWith(pods, nodeIP, ip, i) && local[ip] == InfoOf(pods[i]))
  }

  /**
    The local pods, keyed by address: a pod is kept iff it runs on this node
    and has an address; when two cached pods claim one address, the later one
    in the list wins, as successive map assignments do.
   */
  function GetLocalPods(pods: seq<Pod>, nodeIP: string): (local: map<string, PodInfo>)
    ensures forall ip :: ip in local <==> exists i :: ClaimsAt(pods, nodeIP, ip, i)
    ensures forall ip | ip in local :: local[ip].ip == ip
    ensures forall ip | ip in local :: exists i :: LastLocalWith(pods, nodeIP, ip, i) && local[ip] == InfoOf(pods[i])
  {
    if |pods| == 0 then map[]
    else
      var n := |pods| - 1;
      var rest := GetLocalPods(pods[..n], nodeIP);
      var local := if IsLocal(pods[n], nodeIP) then rest[pods[n].podIP := InfoOf(pods[n])] else rest;
      LocalPodsStep(pods, nodeIP, rest, local);
      local
  }

  /** One more cached pod: the map gains or replaces that pod's entry exactly
      when the pod is local. */
  lemma LocalPodsStep(pods: seq<Pod>, nodeIP: string, rest: map<string, PodInfo>, local: map<string, PodInfo>)
    requires |pods| > 0
    requires LocalPodsOf(pods[..|pods| - 1], nodeIP, rest)
    requires local == if IsLocal(pods[|pods| - 1], nodeIP) then rest[pods[|pods| - 1].podIP := InfoOf(pods[|pods| - 1])] else rest
    ensures LocalPodsOf(pods, nodeIP, local)
  {
    var n := |pods| - 1;
    var init := pods[..n];
    var p := pods[n];
    ClaimsPrefix(pods, nodeIP);
    forall ip
      ensures ip in local <==> exists i :: ClaimsAt(pods, nodeIP, ip, i)
    {
      if ClaimsAt(pods, nodeIP, ip, n) {
        assert ip in local;
      } else if ip in local {
        var i :| ClaimsAt(init, nodeIP, ip, i);
        assert ClaimsAt(pods, nodeIP, ip, i);
      }
    }
    forall ip | ip in local
      ensures exists i :: LastLocalWith(pods, nodeIP, ip, i) && local[ip] == InfoOf(pods[i])
    {
      if ClaimsAt(pods, nodeIP, ip, n) {
        assert LastLocalWith(pods, nodeIP, ip, n);
      } else {
        var i :| LastLocalWith(init, nodeIP, ip, i) && rest[ip] == InfoOf(init[i]);
        assert LastLocalWith(pods, nodeIP, ip, i);
      }
    }
  }

  /** Claims in a prefix are claims in the whole list; a claim that is last
      in the prefix stays last unless the final pod takes the address. */
  lemma ClaimsPrefix(pods: seq<Pod>, nodeIP: string)
    requires |pods| > 0
    ensures forall ip, i :: ClaimsAt(pods[..|pods| - 1], nodeIP, ip, i) <==> (ClaimsAt(pods, nodeIP, ip, i) && i < |pods| - 1)
    ensures forall ip, i :: LastLocalWith(pods[..|pods| - 1], nodeIP, ip, i) && !ClaimsAt(pods, nodeIP, ip, |pods| - 1)
              ==> LastLocalWith(pods, nodeIP, ip, i)
  {
    var n := |pods| - 1;
    forall ip, i ensures ClaimsAt(pods[..n], nodeIP, ip, i) <==> (ClaimsAt(pods, nodeIP, ip, i) && i < n) {
      if 0 <= i < n {
        assert pods[..n][i] == pods[i];
      }
    }
  }
}

=== FILE: sync.dfy ===
/**
  One synchronisation pass over the local pods: for each pod, in the order
  the pod map is iterated, create its firewall chain and run the six steps
  that fill it and hook it into the global chains. The pass returns the set
  of pod chains it made active, or the first error, in which case no set at
  all.
 */
module FirewallSync {
  import opened Outcomes
  import opened Netfilter
  import opened Pods
  import opened ChainNames
  import opened PodRules
  import opened PodRuleLemmas

  /** The firewall chain of a pod in this pass's generation, named as the
      source names it (two pods can share one; see AsWrittenNamesCollide). */
  function PodChain(ctx: Context, pod: PodInfo): (chain: Chain)
    ensures |chain| == |PodChainPrefix| + DigestChars
    ensures chain[..|PodChainPrefix|] == PodChainPrefix
    ensures chain !in GlobalChains
  {
    PodFirewallChainNameAsWritten(ctx.digest, pod.namespace, pod.name, ctx.version)
  }

  /** The mark rules that end a pod chain, in order. */
  function MarkEntries(chain: Chain): set<Entry> {
    {(chain, ResetMark), (chain, AcceptMark)}
  }

  /** Every rule one pod's part of the pass must leave in place. */
  function PodEntries(ctx: Context, pod: PodInfo, chain: Chain): set<Entry> {
    IngressEntries(ctx, pod, chain) + EgressEntries(ctx, pod, chain)
    + InboundEntries(pod, chain) + OutboundEntries(pod, chain)
    + DropEntries(pod.name, pod.namespace, chain) + MarkEntries(chain)
  }

  /** Chains a pod's part of the pass may create or change. */
  function PodScope(chain: Chain): set<Chain> {
    {chain} + GlobalChains
  }

  /** NewChain, where the conflict status (the chain already exists) is no error. */
  function CreatePodChain(h: Host, chain: Chain): (res: Outcome<Host>)
    ensures res.Success? ==> h.table.Keys <= res.value.table.Keys <= h.table.Keys + {chain}
    ensures res.Success? ==> Later(h, res.value)
    ensures res.Success? && chain !in h.table && chain in res.value.table ==> res.value.table[chain] == []
    ensures res.Success? && ExitOneFree(h) ==> chain in res.value.table
    ensures res.Failure? ==> res.exitStatus != ConflictStatus
    ensures h.faults == [] && chain in h.table ==> res == Success(h)
    ensures h.faults == [] ==> res.Success? && chain in res.value.table
  {
    var rep := NewChain(h, chain);
    NewChainAdvances(h, chain);
    if rep.status.Failed? && rep.status.exitStatus != ConflictStatus then Failure(rep.status.exitStatus)
    else Success(rep.host)
  }

  /** Creating the chain adds no rule and touches no other chain. */
  lemma CreatePodChainAdvances(h: Host, chain: Chain)
    requires CreatePodChain(h, chain).Success?
    ensures Advances(h, CreatePodChain(h, chain).value, {chain}, {})
  {
    NewChainAdvances(h, chain);
  }

  /** Clears the provisional-pass bit, then sets the final-pass bit; both
      appended without duplication. */
  function AppendMarkRules(h: Host, chain: Chain): (res: Outcome<Host>)
    ensures res.Success? ==> res.value.table.Keys == h.table.Keys && chain in h.table
    ensures res.Success? ==> Later(h, res.value)
  {
    var h1 :- AppendRule(h, chain, ResetMark);
    var h2 :- AppendRule(h1, chain, AcceptMark);
    Success(h2)
  }

  /** One iteration of the pass: everything the source does for one pod. */
  function SyncPod(h: Host, ctx: Context, pod: PodInfo): (res: Outcome<Host>)
    ensures res.Success? ==> PodChain(ctx, pod) in res.value.table
  {
    var chain := PodChain(ctx, pod);
    var h0 :- CreatePodChain(h, chain);
    var h1 :- SetupPodIngressRules(h0, ctx, pod, chain);
    var h2 :- SetupPodEgressRules(h1, ctx, pod, chain);
    var h3 :- InterceptPodInboundTraffic(h2, pod, chain);
    var h4 :- InterceptPodOutboundTraffic(h3, pod, chain);
    var h5 :- DropUnmarkedTrafficRules(h4, pod.name, pod.namespace, chain);
    AppendMarkRules(h5, chain)
  }

  /** What a successful pass returns: the active pod chains and the host. */
  datatype Synced = Synced(active: set<Chain>, host: Host)

  /** The loop over the local pods, visited in `order`; stops at the first error. */
  function SyncPods(h: Host, ctx: Context, local: map<string, PodInfo>, order: seq<string>): (res: Outcome<Synced>)
    requires forall ip | ip in order :: ip in local
    ensures res.Success? ==> res.value.active == set ip | ip in order :: PodChain(ctx, local[ip])
    decreases |order|
  {
    if |order| == 0 then Success(Synced({}, h))
    else
      var pod := local[order[0]];
      var h1 :- SyncPod(h, ctx, pod);
      var rest :- SyncPods(h1, ctx, local, order[1..]);
      ActiveCons(ctx, local, order);
      Success(Synced({PodChain(ctx, pod)} + rest.active, rest.host))
  }

  /** The chains of a non-empty order: its head's, then the rest's. */
  lemma ActiveCons(ctx: Context, local: map<string, PodInfo>, order: seq<string>)
    requires |order| > 0 && forall ip | ip in order :: ip in local
    ensures (set ip | ip in order :: PodChain(ctx, local[ip]))
         == {PodChain(ctx, local[order[0]])} + set ip | ip in order[1..] :: PodChain(ctx, local[ip])
  {
    assert forall ip :: ip in order <==> ip == order[0] || ip in order[1..];
  }

  /** `order` lists exactly the keys of `local`: the iteration order of a Go
      map, which the language leaves unspecified. */
  predicate Enumerates(order: seq<string>, local: map<string, PodInfo>) {
    && (forall ip | ip in order :: ip in local)
    && (forall ip | ip in local :: ip in order)
  }

  /**
    The pass: builds the local-pod map, then syncs every local pod in the
    given iteration order. On success the active set holds exactly the
    chains of the local pods.
   */
  function SyncPodFirewallChains(h: Host, ctx: Context, pods: seq<Pod>, order: seq<string>): (res: Outcome<Synced>)
    requires Enumerates(order, GetLocalPods(pods, ctx.nodeIP))
    ensures var local := GetLocalPods(pods, ctx.nodeIP);
      res.Success? ==> res.value.active == set ip | ip in local :: PodChain(ctx, local[ip])
  {
    SyncPods(h, ctx, GetLocalPods(pods, ctx.nodeIP), order)
  }
}

=== FILE: sync_lemmas.dfy ===
/**
  What a synchronisation pass guarantees: it changes nothing outside the
  global chains and the active pod chains and never removes a rule; without
  a scripted conflict status, every local pod's chain holds all its rules
  afterwards; a second pass over the same pods, in any order and without
  failures, changes nothing; a fresh pod chain ends with the log, reject and
  two mark rules in that order; and the first failing command ends the pass.
 */
module SyncLemmas {
  import opened Outcomes
  import opened Netfilter
  import opened Pods
  import opened PodRules
  import opened PodRuleLemmas
  import opened FirewallSync

  // ----- the mark rules -----

  lemma MarksAdvances(h: Host, chain: Chain)
    requires AppendMarkRules(h, chain).Success?
    ensures Advances(h, AppendMarkRules(h, chain).value, {chain}, MarkEntries(chain))
    ensures Installed(AppendMarkRules(h, chain).value.table, MarkEntries(chain))
  {
    var S := {chain};
    var M := MarkEntries(chain);
    var h1 := AppendRule(h, chain, ResetMark).value;
    var h2 := AppendRule(h1, chain, AcceptMark).value;
    assert h2 == AppendMarkRules(h, chain).value;
    AppendRuleAdvances(h, chain, ResetMark);
    AppendRuleAdvances(h1, chain, AcceptMark);
    AdvancesWiden(h, h1, S, {(chain, ResetMark)}, S, M);
    AdvancesWiden(h1, h2, S, {(chain, AcceptMark)}, S, M);
    AdvancesTrans(h, h1, h2, S, M);
    AdvancesKeeps(h1, h2, S, {(chain, AcceptMark)}, {(chain, ResetMark)});
  }

  lemma MarksNoOp(h: Host, chain: Chain)
    requires h.faults == [] && Installed(h.table, MarkEntries(chain))
    ensures AppendMarkRules(h, chain) == Success(h)
  {
    assert Has(h.table, chain, ResetMark);
    assert Has(h.table, chain, AcceptMark);
  }

  lemma MarksSucceed(h: Host, chain: Chain)
    requires h.faults == [] && chain in h.table
    ensures AppendMarkRules(h, chain).Success?
  {
    var h1 := AppendRule(h, chain, ResetMark).value;
  }

  // ----- one pod -----

  /** Two successive steps within `scope`, adding only entries of `adds`. */
  lemma Then(h: Host, h1: Host, h2: Host, s1: set<Chain>, a1: set<Entry>, s2: set<Chain>, a2: set<Entry>,
             scope: set<Chain>, adds: set<Entry>)
    requires Advances(h, h1, s1, a1) && Advances(h1, h2, s2, a2)
    requires s1 <= scope && s2 <= scope && a1 <= adds && a2 <= adds
    ensures Advances(h, h2, scope, adds)
  {
    AdvancesWiden(h, h1, s1, a1, scope, adds);
    AdvancesWiden(h1, h2, s2, a2, scope, adds);
    AdvancesTrans(h, h1, h2, scope, adds);
  }

  /** The hosts between the seven steps of a successful pod. */
  lemma SyncPodSteps(h: Host, ctx: Context, pod: PodInfo, h': Host)
    returns (h0: Host, h1: Host, h2: Host, h3: Host, h4: Host, h5: Host)
    requires SyncPod(h, ctx, pod) == Success(h')
    ensures var chain := PodChain(ctx, pod);
      && CreatePodChain(h, chain) == Success(h0)
      && SetupPodIngressRules(h0, ctx, pod, chain) == Success(h1)
      && SetupPodEgressRules(h1, ctx, pod, chain) == Success(h2)
      && InterceptPodInboundTraffic(h2, pod, chain) == Success(h3)
      && InterceptPodOutboundTraffic(h3, pod, chain) == Success(h4)
      && DropUnmarkedTrafficRules(h4, pod.name, pod.namespace, chain) == Success(h5)
      && AppendMarkRules(h5, chain) == Success(h')
  {
    var chain := PodChain(ctx, pod);
    h0 := CreatePodChain(h, chain).value;
    h1 := SetupPodIngressRules(h0, ctx, pod, chain).value;
    h2 := SetupPodEgressRules(h1, ctx, pod, chain).value;
    h3 := InterceptPodInboundTraffic(h2, pod, chain).value;
    h4 := InterceptPodOutboundTraffic(h3, pod, chain).value;
    h5 := DropUnmarkedTrafficRules(h4, pod.name, pod.namespace, chain).value;
  }

  /** Seven successful steps make a successful pod. */
  lemma SyncPodFromSteps(h: Host, ctx: Context, pod: PodInfo, h0: Host, h1: Host, h2: Host, h3: Host, h4: Host, h5: Host, h': Host)
    requires var chain := PodChain(ctx, pod);
      && CreatePodChain(h, chain) == Success(h0)
      && SetupPodIngressRules(h0, ctx, pod, chain) == Success(h1)
      && SetupPodEgressRules(h1, ctx, pod, chain) == Success(h2)
      && InterceptPodInboundTraffic(h2, pod, chain) == Success(h3)
      && InterceptPodOutboundTraffic(h3, pod, chain) == Success(h4)
      && DropUnmarkedTrafficRules(h4, pod.name, pod.namespace, chain) == Success(h5)
      && AppendMarkRules(h5, chain) == Success(h')
    ensures SyncPod(h, ctx, pod) == Success(h')
  {
  }

  /** A pod's part of the pass changes only its own chain and the global
      chains, and only by adding, at most once, rules it is meant to add. */
  lemma SyncPodAdvances(h: Host, ctx: Context, pod: PodInfo, h': Host)
    requires SyncPod(h, ctx, pod) == Success(h')
    ensures Advances(h, h', PodScope(PodChain(ctx, pod)), PodEntries(ctx, pod, PodChain(ctx, pod)))
  {
    var chain := PodChain(ctx, pod);
    var h0, h1, h2, h3, h4, h5 := SyncPodSteps(h, ctx, pod, h');
    CreatePodChainAdvances(h, chain);
    IngressAdvances(h0, ctx, pod, chain);
    EgressAdvances(h1, ctx, pod, chain);
    InboundAdvances(h2, pod, chain);
    OutboundAdvances(h3, pod, chain);
    DropAdvances(h4, pod.name, pod.namespace, chain);
    MarksAdvances(h5, chain);
    PodSteps(h, h0, h1, h2, h3, h4, h5, h', ctx, pod, chain);
  }

  /** The seven steps of a pod, each within its own scope, compose into one
      within the pod's scope whose additions are the union of theirs. */
  lemma PodSteps(h: Host, h0: Host, h1: Host, h2: Host, h3: Host, h4: Host, h5: Host, h6: Host,
                 ctx: Context, pod: PodInfo, chain: Chain)
    requires Advances(h, h0, {chain}, {})
    requires Advances(h0, h1, {chain}, IngressEntries(ctx, pod, chain))
    requires Advances(h1, h2, {chain}, EgressEntries(ctx, pod, chain))
    requires Advances(h2, h3, {ForwardChain, OutputChain}, InboundEntries(pod, chain))
    requires Advances(h3, h4, GlobalChains, OutboundEntries(pod, chain))
    requires Advances(h4, h5, {chain}, DropEntries(pod.name, pod.namespace, chain))
    requires Advances(h5, h6, {chain}, MarkEntries(chain))
    ensures Advances(h, h6, PodScope(chain), PodEntries(ctx, pod, chain))
  {
    var S := PodScope(chain);
    var A := PodEntries(ctx, pod, chain);
    Then(h, h0, h1, {chain}, {}, {chain}, IngressEntries(ctx, pod, chain), S, A);
    Then(h, h1, h2, S, A, {chain}, EgressEntries(ctx, pod, chain), S, A);
    Then(h, h2, h3, S, A, {ForwardChain, OutputChain}, InboundEntries(pod, chain), S, A);
    Then(h, h3, h4, S, A, GlobalChains, OutboundEntries(pod, chain), S, A);
    Then(h, h4, h5, S, A, {chain}, DropEntries(pod.name, pod.namespace, chain), S, A);
    Then(h, h5, h6, S, A, {chain}, MarkEntries(chain), S, A);
  }

  /** The pod's chain exists and holds every rule of the pod. */
  ghost predicate PodInstalled(t: Table, ctx: Context, pod: PodInfo) {
    PodChain(ctx, pod) in t && Installed(t, PodEntries(ctx, pod, PodChain(ctx, pod)))
  }

  /** Rules installed before a step survive it, joined by the step's own. */
  lemma KeepAndAdd(h: Host, h': Host, scope: set<Chain>, adds: set<Entry>, kept: set<Entry>)
    requires Advances(h, h', scope, adds)
    requires Installed(h.table, kept) && Installed(h'.table, adds)
    ensures Installed(h'.table, kept + adds)
  {
    AdvancesKeeps(h, h', scope, adds, kept);
  }

  lemma InstalledSubset(t: Table, es: set<Entry>, sub: set<Entry>)
    requires Installed(t, es) && sub <= es
    ensures Installed(t, sub)
  {
  }

  /** Without a scripted conflict status, a pod's successful part of the pass
      leaves its chain holding all its rules. */
  lemma SyncPodInstalls(h: Host, ctx: Context, pod: PodInfo)
    requires SyncPod(h, ctx, pod).Success? && ExitOneFree(h)
    ensures PodInstalled(SyncPod(h, ctx, pod).value.table, ctx, pod)
  {
    var chain := PodChain(ctx, pod);
    var I := IngressEntries(ctx, pod, chain);
    var E := EgressEntries(ctx, pod, chain);
    var In := InboundEntries(pod, chain);
    var Out := OutboundEntries(pod, chain);
    var D := DropEntries(pod.name, pod.namespace, chain);
    var M := MarkEntries(chain);
    var h0 := CreatePodChain(h, chain).value;
    var h1 := SetupPodIngressRules(h0, ctx, pod, chain).value;
    var h2 := SetupPodEgressRules(h1, ctx, pod, chain).value;
    var h3 := InterceptPodInboundTraffic(h2, pod, chain).value;
    var h4 := InterceptPodOutboundTraffic(h3, pod, chain).value;
    var h5 := DropUnmarkedTrafficRules(h4, pod.name, pod.namespace, chain).value;
    var h6 := AppendMarkRules(h5, chain).value;
    assert h6 == SyncPod(h, ctx, pod).value;
    IngressAdvances(h0, ctx, pod, chain);
    IngressInstalls(h0, ctx, pod, chain);
    EgressAdvances(h1, ctx, pod, chain);
    EgressInstalls(h1, ctx, pod, chain);
    KeepAndAdd(h1, h2, {chain}, E, I);
    InboundAdvances(h2, pod, chain);
    KeepAndAdd(h2, h3, {ForwardChain, OutputChain}, In, I + E);
    OutboundAdvances(h3, pod, chain);
    KeepAndAdd(h3, h4, GlobalChains, Out, I + E + In);
    DropAdvances(h4, pod.name, pod.namespace, chain);
    KeepAndAdd(h4, h5, {chain}, D, I + E + In + Out);
    MarksAdvances(h5, chain);
    KeepAndAdd(h5, h6, {chain}, M, I + E + In + Out + D);
  }

  /** Once a pod's chain holds all its rules, its part of the pass issues
      only commands that change nothing. */
  lemma SyncPodNoOp(h: Host, ctx: Context, pod: PodInfo)
    requires h.faults == [] && PodInstalled(h.table, ctx, pod)
    ensures SyncPod(h, ctx, pod) == Success(h)
  {
    var chain := PodChain(ctx, pod);
    var A := PodEntries(ctx, pod, chain);
    InstalledSubset(h.table, A, IngressEntries(ctx, pod, chain));
    InstalledSubset(h.table, A, EgressEntries(ctx, pod, chain));
    InstalledSubset(h.table, A, InboundEntries(pod, chain));
    InstalledSubset(h.table, A, OutboundEntries(pod, chain));
    InstalledSubset(h.table, A, DropEntries(pod.name, pod.namespace, chain));
    InstalledSubset(h.table, A, MarkEntries(chain));
    IngressNoOp(h, ctx, pod, chain);
    EgressNoOp(h, ctx, pod, chain);
    InboundNoOp(h, pod, chain);
    OutboundNoOp(h, pod, chain);
    DropNoOp(h, pod.name, pod.namespace, chain);
    MarksNoOp(h, chain);
    SyncPodFromSteps(h, ctx, pod, h, h, h, h, h, h, h);
  }

  /** Without failures and with the global chains in place, a pod's part of
      the pass succeeds. */
  lemma SyncPodSucceeds(h: Host, ctx: Context, pod: PodInfo)
    requires h.faults == [] && GlobalChains <= h.table.Keys
    ensures SyncPod(h, ctx, pod).Success?
  {
    var chain := PodChain(ctx, pod);
    var h0 := CreatePodChain(h, chain).value;
    IngressSucceeds(h0, ctx, pod, chain);
    var h1 := SetupPodIngressRules(h0, ctx, pod, chain).value;
    EgressSucceeds(h1, ctx, pod, chain);
    var h2 := SetupPodEgressRules(h1, ctx, pod, chain).value;
    InboundSucceeds(h2, pod, chain);
    var h3 := InterceptPodInboundTraffic(h2, pod, chain).value;
    OutboundSucceeds(h3, pod, chain);
    var h4 := InterceptPodOutboundTraffic(h3, pod, chain).value;
    DropSucceeds(h4, pod.name, pod.namespace, chain);
    var h5 := DropUnmarkedTrafficRules(h4, pod.name, pod.namespace, chain).value;
    MarksSucceed(h5, chain);
  }

  // ----- the order of a fresh pod chain -----

  /** Rules the head-inserting steps may place in the pod chain. */
  predicate PolicyRule(ctx: Context, pod: PodInfo, chain: Chain, r: Rule) {
    (chain, r) in IngressEntries(ctx, pod, chain) + EgressEntries(ctx, pod, chain)
  }

  /** A rule that a step adds to a chain outside the global chains is a
      policy rule. */
  lemma OnlyPolicyRulesInPodChain(ctx: Context, pod: PodInfo, chain: Chain, r: Rule)
    requires chain !in GlobalChains
    requires (chain, r) in IngressEntries(ctx, pod, chain) + EgressEntries(ctx, pod, chain)
                           + (InboundEntries(pod, chain) + OutboundEntries(pod, chain))
    ensures PolicyRule(ctx, pod, chain, r)
  {
    assert (chain, r) !in InboundEntries(pod, chain) + OutboundEntries(pod, chain);
  }

  /** After the first four steps on a chain that started empty, the chain
      holds only policy rules, each once. */
  lemma FreshChainBody(h0: Host, ctx: Context, pod: PodInfo, chain: Chain, h4: Host)
    requires chain !in GlobalChains
    requires chain in h0.table && h0.table[chain] == []
    requires Advances(h0, h4, PodScope(chain),
                      IngressEntries(ctx, pod, chain) + EgressEntries(ctx, pod, chain)
                      + (InboundEntries(pod, chain) + OutboundEntries(pod, chain)))
    ensures forall r | r in Rules(h4.table, chain) :: PolicyRule(ctx, pod, chain, r)
    ensures NoDuplicates(h4.table, chain)
  {
    var A := IngressEntries(ctx, pod, chain) + EgressEntries(ctx, pod, chain)
             + (InboundEntries(pod, chain) + OutboundEntries(pod, chain));
    forall r | r in Rules(h4.table, chain)
      ensures PolicyRule(ctx, pod, chain, r)
    {
      assert Count(h0.table, chain, r) == 0;
      AdvancesOnlyAdds(h0, h4, PodScope(chain), A, chain, r);
      OnlyPolicyRulesInPodChain(ctx, pod, chain, r);
    }
    forall r
      ensures Count(h4.table, chain, r) <= 1
    {
      assert Count(h0.table, chain, r) == 0;
    }
  }

  /** A rule that is in neither `body` nor {a, b} is not in `body + [a, b]`. */
  lemma NotInAppendedPair(body: seq<Rule>, a: Rule, b: Rule, r: Rule)
    requires r !in body && r != a && r != b
    ensures r !in body + [a, b]
  {
  }

  /** A policy rule is a policy jump, a default jump or an accept rule. */
  lemma PolicyRuleKinds(ctx: Context, pod: PodInfo, chain: Chain, r: Rule)
    ensures PolicyRule(ctx, pod, chain, r)
        ==> r.PolicyJump? || r.DefaultIngressJump? || r.DefaultEgressJump? || r.LocalSourceAccept? || r.StatefulAccept?
  {
  }

  /** The four rules of the tail are not policy rules. */
  lemma TailRulesNotPolicyRules(ctx: Context, pod: PodInfo, chain: Chain)
    ensures !PolicyRule(ctx, pod, chain, LogUnmarked(pod.name, pod.namespace))
    ensures !PolicyRule(ctx, pod, chain, RejectUnmarked(pod.name, pod.namespace))
    ensures !PolicyRule(ctx, pod, chain, ResetMark)
    ensures !PolicyRule(ctx, pod, chain, AcceptMark)
  {
    PolicyRuleKinds(ctx, pod, chain, LogUnmarked(pod.name, pod.namespace));
    PolicyRuleKinds(ctx, pod, chain, RejectUnmarked(pod.name, pod.namespace));
    PolicyRuleKinds(ctx, pod, chain, ResetMark);
    PolicyRuleKinds(ctx, pod, chain, AcceptMark);
  }

  /** The first four steps of a pod on its fresh chain. */
  lemma FreshChainSteps(h0: Host, ctx: Context, pod: PodInfo, chain: Chain, h4: Host)
    requires chain == PodChain(ctx, pod)
    requires chain in h0.table && h0.table[chain] == []
    requires SetupPodIngressRules(h0, ctx, pod, chain).Success?
    requires SetupPodEgressRules(SetupPodIngressRules(h0, ctx, pod, chain).value, ctx, pod, chain).Success?
    requires InterceptPodInboundTraffic(SetupPodEgressRules(SetupPodIngressRules(h0, ctx, pod, chain).value, ctx, pod, chain).value, pod, chain).Success?
    requires InterceptPodOutboundTraffic(InterceptPodInboundTraffic(SetupPodEgressRules(SetupPodIngressRules(h0, ctx, pod, chain).value, ctx, pod, chain).value, pod, chain).value, pod, chain)
             == Success(h4)
    ensures forall r | r in Rules(h4.table, chain) :: PolicyRule(ctx, pod, chain, r)
  {
    var S := PodScope(chain);
    var A := IngressEntries(ctx, pod, chain) + EgressEntries(ctx, pod, chain)
             + (InboundEntries(pod, chain) + OutboundEntries(pod, chain));
    var h1 := SetupPodIngressRules(h0, ctx, pod, chain).value;
    var h2 := SetupPodEgressRules(h1, ctx, pod, chain).value;
    var h3 := InterceptPodInboundTraffic(h2, pod, chain).value;
    IngressAdvances(h0, ctx, pod, chain);
    EgressAdvances(h1, ctx, pod, chain);
    InboundAdvances(h2, pod, chain);
    OutboundAdvances(h3, pod, chain);
    Then(h0, h1, h2, {chain}, IngressEntries(ctx, pod, chain), {chain}, EgressEntries(ctx, pod, chain), S, A);
    Then(h0, h2, h3, S, A, {ForwardChain, OutputChain}, InboundEntries(pod, chain), S, A);
    Then(h0, h3, h4, S, A, GlobalChains, OutboundEntries(pod, chain), S, A);
    FreshChainBody(h0, ctx, pod, chain, h4);
  }

  /** A chain holding policy rules only holds none of the tail rules. */
  lemma TailRulesAbsent(body: seq<Rule>, ctx: Context, pod: PodInfo, chain: Chain)
    requires forall r | r in body :: PolicyRule(ctx, pod, chain, r)
    ensures LogUnmarked(pod.name, pod.namespace) !in body
    ensures RejectUnmarked(pod.name, pod.namespace) !in body
    ensures ResetMark !in body && AcceptMark !in body
  {
    TailRulesNotPolicyRules(ctx, pod, chain);
  }

  /** The mark step on a chain holding neither mark rule appends both, in order. */
  lemma MarksLast(h5: Host, chain: Chain, h6: Host)
    requires ResetMark !in Rules(h5.table, chain) && AcceptMark !in Rules(h5.table, chain)
    requires AppendMarkRules(h5, chain) == Success(h6)
    ensures Rules(h6.table, chain) == Rules(h5.table, chain) + [ResetMark, AcceptMark]
  {
    AppendsTwoLast(h5, chain, ResetMark, AcceptMark, h6);
  }

  /** The last two steps on a chain holding none of the tail rules. */
  lemma TailSteps(h4: Host, podName: string, podNamespace: string, chain: Chain, h5: Host, h6: Host)
    requires LogUnmarked(podName, podNamespace) !in Rules(h4.table, chain)
    requires RejectUnmarked(podName, podNamespace) !in Rules(h4.table, chain)
    requires ResetMark !in Rules(h4.table, chain) && AcceptMark !in Rules(h4.table, chain)
    requires DropUnmarkedTrafficRules(h4, podName, podNamespace, chain) == Success(h5)
    requires AppendMarkRules(h5, chain) == Success(h6)
    ensures Rules(h6.table, chain)
         == Rules(h4.table, chain) + [LogUnmarked(podName, podNamespace), RejectUnmarked(podName, podNamespace), ResetMark, AcceptMark]
  {
    var log := LogUnmarked(podName, podNamespace);
    var reject := RejectUnmarked(podName, podNamespace);
    var body := Rules(h4.table, chain);
    DropTailOrder(h4, podName, podNamespace, chain);
    NotInAppendedPair(body, log, reject, ResetMark);
    NotInAppendedPair(body, log, reject, AcceptMark);
    MarksLast(h5, chain, h6);
    AppendPairs(body, log, reject, ResetMark, AcceptMark);
  }

  lemma AppendPairs(body: seq<Rule>, a: Rule, b: Rule, c: Rule, d: Rule)
    ensures body + [a, b] + [c, d] == body + [a, b, c, d]
  {
  }

  /**
    A pod whose chain did not exist before the pass: afterwards the chain
    holds policy rules only, followed by exactly the log rule, the reject
    rule, the mark reset and the accept mark, in that order.
   */
  lemma SyncPodTailOrder(h: Host, ctx: Context, pod: PodInfo)
    requires SyncPod(h, ctx, pod).Success?
    requires PodChain(ctx, pod) !in h.table
    ensures var rules := Rules(SyncPod(h, ctx, pod).value.table, PodChain(ctx, pod));
      && |rules| >= 4
      && rules[|rules| - 4..] == [LogUnmarked(pod.name, pod.namespace), RejectUnmarked(pod.name, pod.namespace), ResetMark, AcceptMark]
      && (forall r | r in rules[..|rules| - 4] :: PolicyRule(ctx, pod, PodChain(ctx, pod), r))
  {
    var chain := PodChain(ctx, pod);
    var h0 := CreatePodChain(h, chain).value;
    var h1 := SetupPodIngressRules(h0, ctx, pod, chain).value;
    var h2 := SetupPodEgressRules(h1, ctx, pod, chain).value;
    var h3 := InterceptPodInboundTraffic(h2, pod, chain).value;
    var h4 := InterceptPodOutboundTraffic(h3, pod, chain).value;
    var h5 := DropUnmarkedTrafficRules(h4, pod.name, pod.namespace, chain).value;
    var h6 := AppendMarkRules(h5, chain).value;
    assert h6 == SyncPod(h, ctx, pod).value;
    FreshChainSteps(h0, ctx, pod, chain, h4);
    TailRulesAbsent(Rules(h4.table, chain), ctx, pod, chain);
    TailSteps(h4, pod.name, pod.namespace, chain, h5, h6);
    var rules := Rules(h6.table, chain);
    assert rules[..|rules| - 4] == Rules(h4.table, chain);
  }

  // ----- the pass -----

  /** Every rule the pods of `order` are meant to add. */
  function PassEntries(ctx: Context, local: map<string, PodInfo>, order: seq<string>): set<Entry>
    requires forall ip | ip in order :: ip in local
    decreases |order|
  {
    if |order| == 0 then {}
    else
      var pod := local[order[0]];
      PodEntries(ctx, pod, PodChain(ctx, pod)) + PassEntries(ctx, local, order[1..])
  }

  lemma {:induction false} SyncPodsAdvances(h: Host, ctx: Context, local: map<string, PodInfo>, order: seq<string>)
    requires forall ip | ip in order :: ip in local
    requires SyncPods(h, ctx, local, order).Success?
    ensures var r := SyncPods(h, ctx, local, order).value;
      Advances(h, r.host, GlobalChains + r.active, PassEntries(ctx, local, order))
    decreases |order|
  {
    var r := SyncPods(h, ctx, local, order).value;
    var S := GlobalChains + r.active;
    var A := PassEntries(ctx, local, order);
    if |order| == 0 {
      AdvancesRefl(h, S, A);
    } else {
      var pod := local[order[0]];
      var h1 := SyncPod(h, ctx, pod).value;
      var rest := SyncPods(h1, ctx, local, order[1..]).value;
      SyncPodAdvances(h, ctx, pod, h1);
      SyncPodsAdvances(h1, ctx, local, order[1..]);
      Then(h, h1, rest.host, PodScope(PodChain(ctx, pod)), PodEntries(ctx, pod, PodChain(ctx, pod)),
           GlobalChains + rest.active, PassEntries(ctx, local, order[1..]), S, A);
    }
  }

  lemma {:induction false} SyncPodsInstalls(h: Host, ctx: Context, local: map<string, PodInfo>, order: seq<string>)
    requires forall ip | ip in order :: ip in local
    requires SyncPods(h, ctx, local, order).Success? && ExitOneFree(h)
    ensures forall ip | ip in order :: PodInstalled(SyncPods(h, ctx, local, order).value.host.table, ctx, local[ip])
    decreases |order|
  {
    if |order| > 0 {
      var pod := local[order[0]];
      var h1 := SyncPod(h, ctx, pod).value;
      var rest := SyncPods(h1, ctx, local, order[1..]).value;
      SyncPodInstalls(h, ctx, pod);
      SyncPodAdvances(h, ctx, pod, h1);
      SyncPodsInstalls(h1, ctx, local, order[1..]);
      SyncPodsAdvances(h1, ctx, local, order[1..]);
      AdvancesKeeps(h1, rest.host, GlobalChains + rest.active, PassEntries(ctx, local, order[1..]),
                    PodEntries(ctx, pod, PodChain(ctx, pod)));
      forall ip | ip in order
        ensures PodInstalled(rest.host.table, ctx, local[ip])
      {
        if ip != order[0] {
          assert ip in order[1..];
        }
      }
    }
  }

  lemma {:induction false} SyncPodsNoOp(h: Host, ctx: Context, local: map<string, PodInfo>, order: seq<string>)
    requires forall ip | ip in order :: ip in local
    requires h.faults == []
    requires forall ip | ip in order :: PodInstalled(h.table, ctx, local[ip])
    ensures SyncPods(h, ctx, local, order).Success?
    ensures SyncPods(h, ctx, local, order).value.host == h
    decreases |order|
  {
    if |order| > 0 {
      SyncPodNoOp(h, ctx, local[order[0]]);
      assert forall ip | ip in order[1..] :: ip in order;
      SyncPodsNoOp(h, ctx, local, order[1..]);
    }
  }

  lemma {:induction false} SyncPodsSucceed(h: Host, ctx: Context, local: map<string, PodInfo>, order: seq<string>)
    requires forall ip | ip in order :: ip in local
    requires h.faults == [] && GlobalChains <= h.table.Keys
    ensures SyncPods(h, ctx, local, order).Success?
    decreases |order|
  {
    if |order| > 0 {
      var pod := local[order[0]];
      SyncPodSucceeds(h, ctx, pod);
      var h1 := SyncPod(h, ctx, pod).value;
      SyncPodAdvances(h, ctx, pod, h1);
      SyncPodsSucceed(h1, ctx, local, order[1..]);
    }
  }

  /**
    A successful pass changes no chain other than the global chains and the
    chains it reports active, creates no other chain, never removes a rule,
    and adds each rule at most once.
   */
  lemma SyncFrame(h: Host, ctx: Context, pods: seq<Pod>, order: seq<string>)
    requires Enumerates(order, GetLocalPods(pods, ctx.nodeIP))
    requires SyncPodFirewallChains(h, ctx, pods, order).Success?
    ensures var r := SyncPodFirewallChains(h, ctx, pods, order).value;
      && h.table.Keys <= r.host.table.Keys <= h.table.Keys + GlobalChains + r.active
      && (forall c | c in h.table && c !in GlobalChains + r.active :: r.host.table[c] == h.table[c])
      && (forall c, rule :: Count(r.host.table, c, rule) >= Count(h.table, c, rule))
      && (forall c, rule | Count(r.host.table, c, rule) != Count(h.table, c, rule)
            :: Count(h.table, c, rule) == 0 && Count(r.host.table, c, rule) == 1)
  {
    var local := GetLocalPods(pods, ctx.nodeIP);
    var r := SyncPodFirewallChains(h, ctx, pods, order).value;
    SyncPodsAdvances(h, ctx, local, order);
    AdvancesFrame(h, r.host, GlobalChains + r.active, PassEntries(ctx, local, order));
  }

  /** Without a scripted conflict status, after a successful pass every local
      pod's chain exists and holds all of that pod's rules. */
  lemma SyncComplete(h: Host, ctx: Context, pods: seq<Pod>, order: seq<string>)
    requires Enumerates(order, GetLocalPods(pods, ctx.nodeIP))
    requires SyncPodFirewallChains(h, ctx, pods, order).Success? && ExitOneFree(h)
    ensures var local := GetLocalPods(pods, ctx.nodeIP);
      forall ip | ip in local :: PodInstalled(SyncPodFirewallChains(h, ctx, pods, order).value.host.table, ctx, local[ip])
  {
    SyncPodsInstalls(h, ctx, GetLocalPods(pods, ctx.nodeIP), order);
  }

  /**
    Running the pass again over the same pods, in any iteration order and
    without failures, reports the same active chains and leaves the packet
    filter exactly as the first pass left it.
   */
  lemma SyncIdempotent(h: Host, ctx: Context, pods: seq<Pod>, order: seq<string>, order2: seq<string>)
    requires Enumerates(order, GetLocalPods(pods, ctx.nodeIP))
    requires Enumerates(order2, GetLocalPods(pods, ctx.nodeIP))
    requires SyncPodFirewallChains(h, ctx, pods, order).Success? && ExitOneFree(h)
    ensures var first := SyncPodFirewallChains(h, ctx, pods, order).value;
      var again := first.host.(faults := []);
      SyncPodFirewallChains(again, ctx, pods, order2) == Success(Synced(first.active, again))
  {
    var local := GetLocalPods(pods, ctx.nodeIP);
    var first := SyncPodFirewallChains(h, ctx, pods, order).value;
    var again := first.host.(faults := []);
    SyncPodsInstalls(h, ctx, local, order);
    SyncPodsNoOp(again, ctx, local, order2);
  }

  /** Without failures and with the global chains in place, the pass succeeds. */
  lemma SyncSucceedsWithoutFaults(h: Host, ctx: Context, pods: seq<Pod>, order: seq<string>)
    requires Enumerates(order, GetLocalPods(pods, ctx.nodeIP))
    requires h.faults == [] && GlobalChains <= h.table.Keys
    ensures SyncPodFirewallChains(h, ctx, pods, order).Success?
  {
    SyncPodsSucceed(h, ctx, GetLocalPods(pods, ctx.nodeIP), order);
  }

  /** With a local pod to sync, a first command failing with any status but
      the conflict status ends the pass with that status and no active set. */
  lemma SyncAbortsOnFault(h: Host, ctx: Context, pods: seq<Pod>, order: seq<string>)
    requires Enumerates(order, GetLocalPods(pods, ctx.nodeIP))
    requires |GetLocalPods(pods, ctx.nodeIP)| > 0
    requires NextStatus(h).Failed? && NextStatus(h).exitStatus != ConflictStatus
    ensures SyncPodFirewallChains(h, ctx, pods, order) == Failure(NextStatus(h).exitStatus)
  {
    var local := GetLocalPods(pods, ctx.nodeIP);
    var ip :| ip in local;
    assert ip in order;
  }
}
